=== FILE: README.md ===
# WinKeyer sending practice, modelled in Dafny

This project models the WinKeyer side of a Morse code trainer (`main.cpp`, namespaces
`WinKeyerModule` and `MorseModule`). It covers:

- the host command frames the trainer sends to a K1EL WinKeyer;
- the handshake and the settings, hardware and other-options menus that build those frames;
- how each byte read back from the keyer is classified, and how speed-pot telemetry is rescaled;
- the two sending-practice games (untimed and timed) as pure step functions folded over
  a sequence of polling events;
- the plain list and map logic of the receiving quizzes: answer comparison,
  most-missed summary, word filters, Farnsworth clamp, spaced-repetition draw and the
  `misses.txt` text format.

Modules, one file each:

| module | file | what it holds |
|---|---|---|
| `Wrappers` | wrappers.dfy | `Option` |
| `Protocol` | protocol.dfy | `byte`, frames, `Command`, `Encode`, the independent `Decode`, `WriteCmd` |
| `Keyer` | keyer.dfy | the keyer configuration (`currentWPM`, pot range, speed variant, speaker, pins) and every frame builder |
| `Telemetry` | telemetry.dfy | inbound byte classes, the pot rescale with C++ truncating division, `OnPot` |
| `Input` | input.dfy | polling events, session status, the echo handler's branches, trimming |
| `Practice` | practice.dfy | `practiceGameLoop` |
| `SpeedPractice` | speed_practice.dfy | `speedPracticeGameLoop`, as written and corrected |
| `Quiz` | quiz.dfy | answer comparison, most-missed scan, Farnsworth clamp, word filters |
| `MissTable` | miss_table.dfy | the `std::map<std::string,int>` of miss counters, seeding, weighted draw, recording |
| `MissStats` | miss_stats.dfy | `saveMissStats` / `loadMissStats` text format |
| `Scenarios` | scenarios.dfy | whole sessions on concrete inputs |

How the environment is represented:

- One pass of a `select()` loop is a `Tick(Poll(key, device, elapsedMs))`: the keyboard
  byte read in that pass, the device byte read in that pass, and the milliseconds since
  the item appeared, sampled at the top of the pass.
- The SIGINT handler clearing `running` is the `Interrupt` event.
- Frames written to the keyer are recorded in the session's `sent` list.
- In `initWinkeyer`, how many writes succeed is an input (`accepts`).
- The shuffle and `rand()` values are parameters.

Behaviour of `main.cpp` worth noting:

- The pot rescale divides by 31. A reading can reach 63, because the class test
  leaves bit 6 clear. The speed is not clamped to the pot maximum (`Telemetry.PotWpm`,
  `Telemetry.TopReadingOverflowsRange`).
- A pot position of 65 cannot arrive: `0x80 | 65` is `0xC1`, which is a status byte and is
  ignored (`Scenarios.HighPotPositionIsStatus`).
- Write failures inside the practice loops are ignored, because the loops drop `writeCmd`'s
  result. Only `initWinkeyer` stops at a failed write (`Keyer.Handshake`).
- The untimed comparison is exact, so it is case-sensitive. The typed buffer is
  upper-cased but the target is not (`Practice.LowercaseTargetNeverRight`).
- Of the three terminators, only the space can seal an item. The terminator test sits
  inside the printable-range test, so a carriage return or line feed from the keyer is
  dropped as a control byte. The backspace/DEL branch is unreachable in the same way
  (`Input.EchoSealsOnlyOnSpace`, `Input.EchoNeverErases`, `Scenarios.CarriageReturnDoesNotSeal`).

## Model

| member | source | states |
|---|---|---|
| Protocol.ToByte | main.cpp:1099-1101 | `static_cast<unsigned char>` of an int keeps it modulo 256 and leaves 0..255 unchanged |
| Protocol.WriteCmd | main.cpp:1071-1074 | writeCmd sends `c1`, then `c2` only for a two-byte frame |
| Protocol.WriteCmdCarriesCommand | main.cpp:1071-1074 | the two-byte writeCmd of an opcode and operand decodes to that command; the one-byte form decodes to nothing |
| Protocol.Encode | main.cpp:1746-1803 | PTT frames are 5 bytes with zeros in the last two, the pot-range frame 4 bytes ending in 0, every other command 2 bytes; the command's opcode comes first |
| Protocol.Decode | main.cpp:1071-1074 | the model's own reader of the frame layouts the builders produce (the program never decodes its frames): a frame is accepted only with the length its opcode's layout fixes (2, 4 or 5 bytes) and with that opcode first; frames of 0, 1, 3 or more than 5 bytes are refused |
| Protocol.DecodeEncode | main.cpp:1071-1074 | the frame layouts are unambiguous: every command frame the builders produce reads back, through the model's own reader, as the command |
| Protocol.EncodeDecode | main.cpp:1746-1803 | every frame the decoder accepts is the encoding of what it decoded to, so the layouts are unambiguous |
| Protocol.EncodeInjective | main.cpp:1071-1074 | distinct commands never share a frame, a consequence of the round trip through the model's own reader |
| Keyer.SpeedCommand | main.cpp:1097-1102 | the speed command is 0x1C exactly when the buffered variant is selected, else 0x02, with the WPM truncated to a byte |
| Keyer.SpeedFrame | main.cpp:1097-1102 | the speed frame is two bytes, the variant's opcode then the WPM modulo 256, and decodes to the speed command |
| Keyer.Handshake | main.cpp:1085-1108 | the handshake succeeds iff all four writes go through; what went out is a prefix of host-open, mode 0xC4, speed, pin config, each decoding to its command |
| Keyer.SetSpeed | main.cpp:1636-1648 | a frame is sent iff 5 <= speed <= 99; it carries the speed in the configured variant; `currentWPM` changes only then |
| Keyer.WeightingFrame | main.cpp:1658-1661 | frame iff 10 <= w <= 90, and it is `[0x03, w]` |
| Keyer.FarnsworthFrame | main.cpp:1673-1676 | frame iff 10 <= f <= 99, and it is `[0x0D, f]` |
| Keyer.RatioFrame | main.cpp:1688-1691 | frame iff 33 <= ratio <= 66, and it is `[0x17, ratio]` |
| Keyer.CompensationFrame | main.cpp:1703-1706 | frame iff 0 <= ms <= 250, and it is `[0x11, ms]` |
| Keyer.PttLeadFrame | main.cpp:1743-1756 | frame iff 0 <= ms <= 250; five bytes carrying lead ms/10 and a zero tail |
| Keyer.PttTailFrame | main.cpp:1765-1778 | frame iff 0 <= ms <= 250; five bytes carrying tail ms/10 and a zero lead |
| Keyer.PttFramesClearOtherDelay | main.cpp:1746-1775 | setting either PTT delay writes zero into the other; delays are stored in tens of ms, so ms and ms - ms % 10 give the same frame |
| Keyer.SetPotRange | main.cpp:1795-1803 | refused unless max > min >= 1; otherwise `[0x05, min, max-min, 0]` is sent and the stored range follows; a proper stored range stays proper |
| Keyer.PinMenu | main.cpp:1595-1608 | choice 1 stores pin byte 0x0F with the speaker on, 2 stores 0x0D with it off, 3 stores 0x07 and leaves the speaker flag; each sends the pin frame of the new byte; any other choice sends nothing and changes nothing |
| Keyer.PinFrame | main.cpp:1608 | the pin frame carries the configured pin byte and changes no setting |
| Keyer.ToggleSpeaker | main.cpp:1811-1813 | the speaker flag flips, the pin byte is derived from it (0x0F on, 0x0D off) and sent, and nothing else changes |
| Keyer.ToggleSpeakerTwice | main.cpp:1811-1812 | two toggles restore a configuration whose pins match the flag; a custom 0x07 pin byte is lost |
| Keyer.KeyingChoice | main.cpp:1856-1864 | option 1 is iambic B, 2 iambic A, 3 ultimatic, 4 bug; any other option is refused |
| Keyer.ModeFrame | main.cpp:1856-1866 | options 1-4 send `[0x0E, m]` with m = 0xC4, 0xD4, 0xE4, 0xF4 respectively; other options send nothing; option 1 is the handshake's mode frame |
| Keyer.ModeBytesDistinct | main.cpp:1858-1861 | the four mode options give four different frames, all with low nibble 4 |
| Keyer.ToggleSpeedCommand | main.cpp:1873 | the toggle flips only the speed-variant flag, so every later speed frame switches opcode while keeping the operand; no other setting changes |
| Keyer.ToggleSpeedCommandTwice | main.cpp:1873 | toggling twice restores the configuration, and a single toggle always changes it |
| Telemetry.Classify | main.cpp:1241-1261 | 0x80..0xBF is a pot reading of b - 128; 0xC0..0xFF is status; 32..126 is an echoed character of that code; everything else is dropped |
| Telemetry.CDiv | main.cpp:1243 | C++ division truncates toward zero: the remainder is smaller than the divisor in size and takes the sign of the dividend |
| Telemetry.PotWpm | main.cpp:1241-1243 | reading 0 gives exactly the pot minimum and reading 31 exactly the maximum; with max > min every reading gives at least the minimum, readings up to 31 stay within the range, and readings of 62 or more give at least min + 2*(max - min) |
| Telemetry.ScaledSpan | main.cpp:1243 | the truncated quotient `pot * span / 31` is the span at reading 31, not negative for a positive span, at most the span up to reading 31 and at least twice it from reading 62 |
| Telemetry.PotWpmMonotone | main.cpp:1242-1243 | with max > min, a higher reading never gives a lower speed |
| Telemetry.TopReadingOverflowsRange | main.cpp:1241-1243 | 0xBF is reading 63, and under the initial 5..35 range it asks for 65 WPM |
| Telemetry.OnPot | main.cpp:1241-1250 | a reading sets `currentWPM` to the rescaled value and sends one speed frame iff that value differs, in the configured variant; nothing else changes |
| Telemetry.OnPotIdempotent | main.cpp:1244 | the same reading twice sends nothing the second time |
| Input.Upper | main.cpp:1295 | toupper maps a-z to A-Z and leaves everything else; its result is never lower case |
| Input.EditFor | main.cpp:1261-1295 | space, CR and LF seal; BS and DEL erase; any other character is appended upper-cased, so what is appended is never lower case and never a terminator |
| Input.EchoNeverErases | main.cpp:1260-1287 | no byte that passes the printable test reaches the backspace branch |
| Input.EchoSealsOnlyOnSpace | main.cpp:1260-1262 | an echoed byte seals the item iff it is 0x20 |
| Input.Backspace | main.cpp:1284-1286 | pop_back removes the last character of a non-empty buffer, and leaves an empty one alone |
| Input.TrimRight | main.cpp:1502 | the trimmed string is the longest prefix not ending in space, tab, CR or LF; an all-blank string becomes empty |
| Input.TrimRightIdempotent | main.cpp:1538 | trimming twice is trimming once |
| Input.CleanTrimmed | main.cpp:1502 | a buffer without blanks is unchanged by the trim |
| Input.TypeKeepsClean | main.cpp:1293-1295 | appending an echoed non-terminator keeps the buffer free of blanks and lower case |
| Practice.Start | main.cpp:1204-1207 | a session starts with the given items and settings at item 0, with an empty buffer, no right or wrong answers and no frames sent; it is already over when there are no items |
| Practice.OnDevice | main.cpp:1259-1302 | a space seals the item and moves to the next one with an empty buffer, adding one to right when the buffer equals the target and one to wrong otherwise, the other tally unchanged; any other printable byte appends its upper-case form; a pot reading changes only the speed and the frames sent; status and control bytes change nothing |
| Practice.Step | main.cpp:1207-1303 | a pass keeps the session well formed and the item list fixed; it advances at most one item and appends at most one frame; a finished session does not move |
| Practice.Run | main.cpp:1207-1310 | the whole loop keeps the session well formed and the item list fixed |
| Practice.Advance | main.cpp:1309 | moving on clears the buffer, stores the new tallies and puts up the next item, completing the session after the last one; nothing else changes and the session stays well formed |
| Practice.StepKeepsTally | main.cpp:1261-1283 | each pass keeps right + wrong equal to the items sealed, and to the item count once the session is over |
| Practice.RunKeepsTally | main.cpp:1207-1233 | the tally invariant holds after any event sequence |
| Practice.SessionCountsEveryItem | main.cpp:1207-1310 | a session that finished or was aborted with ESC has right + wrong equal to the number of items |
| Practice.RunAfterEnd | main.cpp:1230-1233 | after the session ends no event changes anything, so no more frames are sent |
| Practice.EscWins | main.cpp:1225-1233 | ESC aborts the session, counting every remaining item wrong, whatever the device delivers in the same pass |
| Practice.OtherKeysIgnored | main.cpp:1225-1236 | any keyboard byte other than ESC has no effect |
| Practice.TerminatorSeals | main.cpp:1261-1283 | a terminator echo seals the item and adds one to right when the buffer equals the target and one to wrong otherwise, the other tally unchanged; the keyer and the frames sent are untouched |
| Practice.BufferOnlyGrows | main.cpp:1284-1302 | while the item stays up the buffer only grows, by at most one character, never lower case and never a terminator; a printable echo appends exactly its upper-case form |
| Practice.StepKeepsClean | main.cpp:1293-1295 | the buffer stays free of blanks and lower case |
| Practice.LowercaseTargetNeverRight | main.cpp:1264 | a target holding a lower-case letter is never counted right |
| Practice.TelemetryOrthogonal | main.cpp:1241-1258 | a pot reading changes only the speed and the frames sent, never the item, buffer or tallies |
| SpeedPractice.Start | main.cpp:1402-1412 | the timed session starts waiting for the operator, with the given items, time limit and keyer settings, at item 0 with an empty buffer, nothing counted, no misses and no frames sent |
| SpeedPractice.Gate | main.cpp:1413-1442 | before the first item only the status can change: ESC cancels; a space, CR or LF key starts the items (the session is at once complete when there are none), and only such a key does; the interrupt, and only it, ends the session; any other key or no key changes nothing; the device is not read |
| SpeedPractice.OnDevice | main.cpp:1480-1533 | a device byte never moves the item; it seals the item iff it is 0x20, and a seal adds one to right when the trimmed buffer equals the target and otherwise one to wrong, charging one miss with the trimmed buffer; a seal changes nothing but the tallies and the misses; any other printable byte appends its upper-case form; a pot reading does not seal and changes only the speed and the frames sent; no byte, a status byte or a control byte changes nothing |
| SpeedPractice.TelemetryOrthogonal | main.cpp:1484-1494 | a pot reading in the timed loop yields exactly the pot handler's speed and frames and leaves the item, buffer, tallies and misses alone |
| SpeedPractice.Advance | main.cpp:1549 | moving on clears the buffer and puts up the next item, completing the session after the last one; nothing else changes and the session stays well formed |
| SpeedPractice.CountMiss | main.cpp:1512-1519 | charging a miss adds one wrong answer and appends exactly one (target, trimmed buffer) entry to the miss list, keeping the earlier entries; nothing else changes |
| SpeedPractice.Step | main.cpp:1443-1549 | as written: the pass stays well formed, advances at most one item and adds at most two misses |
| SpeedPractice.StepCorrected | main.cpp:1443-1549 | corrected: the same, but with at most one miss per pass |
| SpeedPractice.Run | main.cpp:1443-1549 | as written, the whole loop keeps the session well formed and the item list fixed |
| SpeedPractice.RunCorrected | main.cpp:1443-1549 | corrected, the whole loop keeps the session well formed and the item list fixed |
| SpeedPractice.OnDeviceFacts | main.cpp:1500-1521 | a sealing byte adds one to exactly one tally and leaves the buffer, the keyer and the frames sent alone; a wrong seal appends exactly one (target, trimmed answer) miss |
| SpeedPractice.CountMissKeeps | main.cpp:1536-1539 | charging a miss keeps the miss list in step with the wrong count, naming a session item |
| SpeedPractice.PassKeepsInvariants | main.cpp:1480-1547 | as written, a pass keeps misses in step with wrong answers and keeps each sealed item counted once or twice |
| SpeedPractice.PassCorrectedKeepsInvariants | main.cpp:1480-1547 | corrected, a pass keeps misses in step with wrong answers and counts each sealed item exactly once |
| SpeedPractice.StepKeepsInvariants | main.cpp:1443-1549 | the as-written invariants survive every event |
| SpeedPractice.StepCorrectedKeepsInvariants | main.cpp:1443-1549 | the corrected invariants survive every event |
| SpeedPractice.RunKeepsInvariants | main.cpp:1443-1549 | the as-written invariants hold after any event sequence |
| SpeedPractice.RunCorrectedKeepsInvariants | main.cpp:1443-1549 | the corrected invariants hold after any event sequence |
| SpeedPractice.CorrectedSessionCountsEveryItem | main.cpp:1443-1549 | a corrected session that finished or was aborted has right + wrong equal to the item count, and one miss per wrong answer except ESC's bulk charge |
| SpeedPractice.SessionCountsBounded | main.cpp:1443-1549 | as written, a session counts each item at least once and at most twice, and every miss names an item |
| SpeedPractice.DeadlineTimesOut | main.cpp:1535-1546 | a pass at or past the limit that does not seal counts the item wrong, never right, and records the trimmed buffer as the answer |
| SpeedPractice.VersionsDifferOnlyAtDeadlineSeal | main.cpp:1535 | the two versions differ only on a pass that both seals and reaches the deadline, where the code as written adds one extra wrong |
| SpeedPractice.EscWins | main.cpp:1468-1477 | ESC aborts, counting every remaining item wrong without listing them as misses, deadline or not |
| SpeedPractice.DoubleCountWitness | main.cpp:1535-1547 | one item keyed right with the space arriving in the deadline pass is counted right and wrong and listed as missed |
| SpeedPractice.DoubleCountCorrected | main.cpp:1535-1547 | with the correction, the same trace counts the item once, right |
| SpeedPractice.StepKeepsClean | main.cpp:1500-1503 | the buffer stays free of blanks, so trimming never changes it |
| Quiz.ToLower | main.cpp:314-315 | tolower maps A-Z to a-z and leaves everything else |
| Quiz.LowerAll | main.cpp:314-315 | lower-casing keeps the length and lowers each character |
| Quiz.AnswerMatches | main.cpp:312-316 | an answer that matches has the question's length, and every string matches itself |
| Quiz.AnswerMatchesIff | main.cpp:312-316 | an answer matches iff it has the question's length and agrees with it character by character, ignoring case |
| Quiz.AnswerMatchesEquivalence | main.cpp:312-316 | matching is reflexive, symmetric and transitive |
| Quiz.SingleKeyAnswersOnlyOneCharQuestions | main.cpp:913-921 | a single-key answer can only match a one-character question |
| Quiz.MostMissed | main.cpp:323-338 | the summary reports the first item with the greatest positive miss count, or "" and 0 when nothing was missed |
| Quiz.EffectiveWpm | main.cpp:977-980 | the Farnsworth speed is kept when it does not exceed the character speed and replaced by it otherwise |
| Quiz.EffectiveWpmIdempotent | main.cpp:977-980 | clamping twice is clamping once, and the clamp is the minimum of the two speeds |
| Quiz.Select | main.cpp:1180-1186 | every word kept has the wanted length (and only letters when required) and comes from the list; when every word is wanted the list is kept whole |
| Quiz.SelectMembers | main.cpp:1180-1186 | a word is kept iff it is in the list, has the wanted length and, when required, only letters |
| Quiz.SelectAppend | main.cpp:444-447 | filtering two lists one after the other is filtering their concatenation, so order is kept |
| Quiz.AllLetters | main.cpp:1182 | the all_of test holds iff every character is alphabetic |
| Quiz.FilterWords | main.cpp:1180-1186 | the filtering loop keeps exactly the wanted words, in order |
| MissTable.StrLessIrreflexive | main.cpp:850 | no key is ordered below itself |
| MissTable.StrLessTransitive | main.cpp:850 | the key order is transitive |
| MissTable.StrLessTotal | main.cpp:850 | any two different keys are ordered |
| MissTable.Get | main.cpp:875 | find gives a count exactly for keys present, and it is that key's stored count |
| MissTable.Put | main.cpp:876 | assignment stores the count for the key, leaves every other key alone, and keeps the map ordered and non-negative |
| MissTable.Seed | main.cpp:874-878 | after seeding every pool item has a counter; existing counts are kept; new ones are 0; no other key appears |
| MissTable.ScanSelects | main.cpp:885-904 | any r in [0, totalWeight) stops the cumulative scan on a pool item, so the uniform fallback is reached only when `r` is out of range or a pool item is the empty string |
| MissTable.ScanInterval | main.cpp:894-904 | entry i is drawn for exactly the 1 + misses values of r following the weight of the entries before it |
| MissTable.TotalWeight | main.cpp:885-891 | the total weight is 0 when no counter is a pool item, and not negative when no count is |
| MissTable.Scan | main.cpp:894-904 | the cumulative scan only stops on a pool item that has a counter, and with non-negative counts it finds nothing for any r at or above the total weight |
| MissTable.SeededWeightPositive | main.cpp:874-892 | when no count is negative and a pool item has a counter, the total weight is positive, so `rand() % totalWeight` is defined; seeding and recording answers keep every count non-negative |
| MissTable.Draw | main.cpp:891-907 | the loop draws the scan's item, and falls back to a uniform pool pick only when the scan finds nothing |
| MissTable.RecordAnswer | main.cpp:918-927 | a wrong answer adds one to the asked item's count (from 0 if absent); a right one changes nothing; other keys never change |
| MissStats.IntString | main.cpp:216 | an int is written as a token that starts with a digit when it is not negative |
| MissStats.NatString | main.cpp:216 | a natural number is written as a non-empty run of decimal digits |
| MissStats.NatStringValue | main.cpp:216 | the decimal digits written for n read back as n |
| MissStats.TokenValue | main.cpp:204 | a token has an integer value iff it is an optional sign followed by one or more digits; the value is the digits' value, negated after a minus sign |
| MissStats.ParseInt | main.cpp:203-204 | a count is read iff its token is a numeral whose value fits the 32-bit `int`, and then it is that value |
| MissStats.ReadsExactlyNumerals | main.cpp:203-204 | the read succeeds exactly on numerals that fit an `int`, so any other token ends the read loop |
| MissStats.IntStringValue | main.cpp:216 | the written form of any integer spells that integer |
| MissStats.IntStringParses | main.cpp:203-205 | every written count that fits an `int` reads back as the same integer |
| MissStats.IntStringOverflows | main.cpp:203-204 | a written count outside the `int` range fails to read, which ends the read loop |
| MissStats.Serialize | main.cpp:212-220 | the saved text is empty iff there are no counters; otherwise it starts with the first key and ends with a newline |
| MissStats.Load | main.cpp:204-206 | the read loop keeps the map ordered and keeps every key already present; every key it adds is one of the tokens; counts stay within `int` |
| MissStats.Parse | main.cpp:198-209 | loading gives an ordered map whose keys are tokens of the text and whose counts fit an `int` |
| MissStats.PutKeepsFit | main.cpp:205 | storing a count in range keeps every count in range |
| MissStats.WordEnd | main.cpp:204 | `operator>>` into a string takes the longest run of non-blank characters: the run contains no blank and is followed by a blank or the end |
| MissStats.Tokens | main.cpp:204 | the whitespace-separated words of the text, each non-empty and free of blanks |
| MissStats.ReadFirstLine | main.cpp:204-205 | reading the first saved line of an ordered table appends that entry to what was read before |
| MissStats.TokensOfSerialize | main.cpp:212-220 | the saved text splits into key, count, key, count, ... in map order |
| MissStats.PutAbove | main.cpp:205 | storing a key above every present key appends it |
| MissStats.LoadPairs | main.cpp:204-206 | the read loop over an ordered table's tokens rebuilds that table |
| MissStats.RoundTrip | main.cpp:198-220 | loading what was saved gives back the same counters whenever the keys contain no white space and the counts fit an `int` |
| MissStats.NegativeCountEmptiesDraw | main.cpp:198-209 | the reader accepts a negative count: the file `A -1` loads the counter -1, and with the pool ["A"] the total weight, the divisor of the draw, is then zero |
| MissStats.ParseStopsAtBadCount | main.cpp:198-209 | an empty file, or one whose first count does not read as an `int`, loads no counters |
| Scenarios.TwoItemsRight | main.cpp:1207-1310 | under any keyer settings, two items keyed right and sealed by spaces finish with two right, no wrong and nothing sent |
| Scenarios.LowerCaseEchoMatches | main.cpp:1295 | under any keyer settings, a lower-case echo is upper-cased and matches an upper-case target |
| Scenarios.EscDuringSecondItem | main.cpp:1225-1233 | under any keyer settings, ESC during item 2 of 5 gives one right and four wrong, and nothing afterwards is acted on |
| Scenarios.TimeoutWithNothingTyped | main.cpp:1535-1546 | under any keyer settings, an item with nothing keyed times out as wrong, with an empty recorded answer |
| Scenarios.PotReadingMidItem | main.cpp:1241-1250 | at 20 WPM with the 5..35 range and the direct speed command, pot reading 20 gives 24 WPM and one `[0x02, 24]` frame |
| Scenarios.CarriageReturnDoesNotSeal | main.cpp:1260-1262 | under any keyer settings, a carriage return from the keyer is dropped as a control byte and the pass changes nothing |
| Scenarios.HighPotPositionIsStatus | main.cpp:1241-1258 | 0x80 + 65 classifies as a status byte, and under any keyer settings the pass that reads it changes nothing |
| Scenarios.InitialHandshake | main.cpp:1085-1108 | the handshake with the initial settings sends `00 02`, `0E C4`, `02 14`, `09 0F`, and stops after two when the third write fails |

## Findings

| source | as written | input that shows it | evidently intended | confidence | as-written member | corrected member |
|---|---|---|---|---|---|---|
| main.cpp:1535-1547 | the deadline test `elapsed >= timeLimitSec` runs after the device byte without checking `itemComplete`, so an item sealed in the pass that reaches the limit also counts one wrong and is listed as missed | a 1 s limit and one item "E"; "E" is echoed at 10 ms; the space echo is read in the pass whose elapsed time is 1000 ms; the result is right 1, wrong 1 and missed [("E","E")] | an item is judged once: the deadline applies only to an item not yet sealed, so right + wrong equals the number of items | not executed | SpeedPractice.DoubleCountWitness | SpeedPractice.CorrectedSessionCountsEveryItem |

`SpeedPractice.Step` and `SpeedPractice.Run` model the code as written. `SpeedPractice.StepCorrected`
and `SpeedPractice.RunCorrected` test the deadline only when the pass did not seal.
`SpeedPractice.VersionsDifferOnlyAtDeadlineSeal` shows that this is the only difference.

## Left out

- Audio (`playBeep`, `playMorseCode`) is not modelled: it is floating-point timing through a foreign library.
- termios, `select`, `read`, `write`, `open`, `usleep` and the SIGINT handler are not modelled. They become the event sequence, the `Interrupt` event and the `accepts` count.
- The `delay_ms` pauses are not modelled, because they have no effect on state.
- Screen drawing (`clearScreen`, `updateHeader`, the ANSI headers, `system()`) is not modelled: it is display only.
- The percentage score is not modelled: it is floating point.
- Wall-clock time is a natural number of milliseconds, not a double number of seconds. The deadline test is `elapsedMs >= limitMs`. Validating the time limit as a double is not modelled.
- The shuffle (`std::shuffle` with `mt19937`) and `rand()` are not modelled. The shuffled item list and the draw values `r` and `fallback` are parameters.
- The rejection-sampling do/while loops are not modelled: they are nondeterministic.
- The menus and the `stoi`/`stod`/`operator>>` parsing of operator input are not modelled. Operands arrive as ints. A non-numeric entry is the out-of-range value the code substitutes, so it takes the same refusal path.
- Opening the word list and `misses.txt` is not modelled. Only their in-memory contents and the `key count` text format are modelled.
- Inside that format, `MissStats.ParseInt` accepts only a whole token of an optional sign and digits whose value fits a 32-bit `int`. `operator>>` would also read the leading digits of a token such as `12abc`, leaving the rest as the next key. The token layout and round trip are stated for tables the program itself writes.
- Strings are sequences of `char`, one per byte of the `std::string`. UTF-8 is not decoded, so a key such as "café" must be given as its bytes, and lengths such as `word.size()` in the word filter count those bytes.
- The Windows `getch` branch is not modelled: it is platform specific.
- The device bytes that arrive during the timed mode's ready gate are not modelled. The gate never reads the device, so they stay queued on the serial line until the first item. `SpeedPractice.Gate` ignores the device part of a poll.
- `Telemetry.PotWpm` does not model 32-bit overflow of `potVal * (max - min)`. That product needs a pot span above 34 million WPM, which the pot-range menu would have to accept first.
- MissTable.SeededWeightPositive: requires that no count is negative, which holds for every `misses.txt` the program writes but not for a hand-edited one. The reader at main.cpp:198-209 accepts a negative count, and a line such as `A -26` with the 26-letter pool drives `totalWeight` to 0, so `rand() % totalWeight` at main.cpp:892 divides by zero; `MissStats.NegativeCountEmptiesDraw` exhibits the one-letter case. The model does not say what the draw does then.
- `MissTable.Draw` takes `r` as given. The code computes `rand() % totalWeight` in `long long`. `MissTable.SeededWeightPositive` shows that this divisor is positive whenever the pool is seeded and not empty and no count is negative.
- `Practice.Step`, `SpeedPractice.Step`: the frames a pass sends are recorded whether or not the write succeeds, because the loops never look at `writeCmd`'s result.

=== FILE: input.dfy ===
/**
 * What the two practice loops share: the events one pass of the select() loop can
 * deliver, and the handling of an echoed character against the typed buffer.
 */
module Input {
  import opened Wrappers
  import opened Protocol
  import opened Telemetry

  /**
   * One pass of the polling loop: the keyboard byte read this pass (if any), the device
   * byte read this pass (if any), and the milliseconds since the item was shown, sampled
   * at the top of the pass. The untimed loop never looks at the clock.
   */
  datatype Poll = Poll(key: Option<byte>, device: Option<byte>, elapsedMs: nat)

  /** A pass of the loop, or the interrupt handler clearing the running flag. */
  datatype Event = Tick(poll: Poll) | Interrupt

  /** Where a practice session stands. */
  datatype Status =
    | Waiting        // timed mode only: before the operator presses space/enter to begin
    | Running        // an item is on screen
    | Completed      // every item was sealed
    | Aborted        // ESC during an item: the rest were counted wrong
    | Interrupted    // the running flag was cleared
    | Cancelled      // timed mode only: ESC before the first item
  {
    /** Ended with every item counted: by finishing the list or by ESC. */
    predicate Settled() {
      Completed? || Aborted?
    }

    /** Cut short before a result covering every item: by the interrupt, or before any item. */
    predicate CutShort() {
      Interrupted? || Cancelled?
    }
  }

  const Esc: byte := 27

  predicate IsTerminator(c: char) {
    c == ' ' || c == '\r' || c == '\n'
  }

  predicate IsLower(c: char) {
    'a' <= c <= 'z'
  }

  /** std::toupper in the "C" locale. */
  function Upper(c: char): (u: char)
    ensures IsLower(c) ==> u as int == c as int - 32
    ensures !IsLower(c) ==> u == c
    ensures !IsLower(u)
  {
    if IsLower(c) then (c as int - 32) as char else c
  }

  /** What the branches of the echo handler do to the typed buffer. */
  datatype Edit = Seal | Erase | Type(ch: char)

  /** The echo handler's branches in source order: terminator, backspace/DEL, anything else. */
  function EditFor(c: char): (e: Edit)
    ensures e.Seal? <==> IsTerminator(c)
    ensures e.Erase? <==> c as int == 8 || c as int == 127
    ensures e.Type? ==> !IsLower(e.ch) && !IsTerminator(e.ch)
    ensures e.Type? ==> e.ch == c || (IsLower(c) && e.ch as int == c as int - 32)
  {
    if IsTerminator(c) then Seal
    else if c as int == 8 || c as int == 127 then Erase
    else Type(Upper(c))
  }

  /** The backspace branch sits behind the printable test, so no device byte ever reaches it. */
  lemma EchoNeverErases(b: byte)
    requires Classify(b).Echo?
    ensures EditFor(Classify(b).ch) != Erase
  {
  }

  /**
   * Of the three terminators only the space is printable, so a space is the only echo
   * that seals an item: carriage return and line feed are dropped as control bytes.
   */
  lemma EchoSealsOnlyOnSpace(b: byte)
    requires Classify(b).Echo?
    ensures EditFor(Classify(b).ch) == Seal <==> b == 0x20
  {
  }

  function Backspace(s: string): (r: string)
    ensures |s| == 0 ==> r == s
    ensures |s| > 0 ==> r + [s[|s| - 1]] == s
  {
    if |s| == 0 then s else s[..|s| - 1]
  }

  /** The characters find_last_not_of(" \n\r\t") skips. */
  predicate IsTrimSpace(c: char) {
    c == ' ' || c == '\n' || c == '\r' || c == '\t'
  }

  /** s.erase(s.find_last_not_of(" \n\r\t") + 1): all trailing blanks go, an all-blank string empties. */
  function TrimRight(s: string): (r: string)
    decreases |s|
    ensures |r| <= |s| && r == s[..|r|]
    ensures forall i :: |r| <= i < |s| ==> IsTrimSpace(s[i])
    ensures |r| == 0 || !IsTrimSpace(r[|r| - 1])
  {
    if |s| > 0 && IsTrimSpace(s[|s| - 1]) then TrimRight(s[..|s| - 1]) else s
  }

  lemma TrimRightIdempotent(s: string)
    ensures TrimRight(TrimRight(s)) == TrimRight(s)
  {
  }

  /** A buffer as the loops build it: no blanks (they seal the item) and no lower case. */
  predicate Clean(s: string) {
    forall i :: 0 <= i < |s| ==> !IsTrimSpace(s[i]) && !IsLower(s[i])
  }

  lemma CleanTrimmed(s: string)
    requires Clean(s)
    ensures TrimRight(s) == s
  {
  }

  /** Typing one non-terminator echo keeps the buffer clean and only ever appends. */
  lemma TypeKeepsClean(s: string, b: byte)
    requires Clean(s)
    requires Classify(b).Echo? && EditFor(Classify(b).ch).Type?
    ensures Clean(s + [EditFor(Classify(b).ch).ch])
  {
    var c := Classify(b).ch;
    assert !IsTrimSpace(Upper(c));
  }
}

=== FILE: keyer.dfy ===
/**
 * The keyer session configuration and every command the settings, hardware and
 * other-options menus send: each builder takes the operand the operator typed and
 * either refuses it (no frame, configuration untouched) or yields the frame.
 */
module Keyer {
  import opened Wrappers
  import opened Protocol

  /** The process-wide keyer state the menus and the practice loops share. */
  datatype Config = Config(
    wpm: int,              // currentWPM
    potMin: int,           // speedPotMinWpm
    potMax: int,           // speedPotMaxWpm
    buffered: bool,        // useBufferedSpeedChange: 0x1C rather than 0x02
    speakerOn: bool,       // internalSpeakerOn
    pinCfg: byte)           // pinCfg

  /** The values the program starts with. */
  const Initial := Config(20, 5, 35, false, true, 0x0F)

  /** The stored pot range is a proper range starting at 1 WPM or more. */
  predicate PotRangeOk(c: Config) {
    1 <= c.potMin < c.potMax
  }

  /** Speed-set command in the variant the configuration selects, operand truncated to a byte. */
  function SpeedCommand(buffered: bool, wpm: int): (c: Command)
    ensures c.Speed? || c.BufferedSpeed?
    ensures c.BufferedSpeed? <==> buffered
    ensures c.wpm as int == wpm % 256
  {
    if buffered then BufferedSpeed(ToByte(wpm)) else Speed(ToByte(wpm))
  }

  function SpeedFrame(buffered: bool, wpm: int): (f: Frame)
    ensures |f| == 2
    ensures f[0] == (if buffered then OpBufferedSpeed else OpSpeed)
    ensures f[1] as int == wpm % 256
    ensures Decode(f) == Some(SpeedCommand(buffered, wpm))
  {
    WriteCmd(if buffered then OpBufferedSpeed else OpSpeed, ToByte(wpm), true)
  }

  // ---------------------------------------------------------------------
  // Device handshake
  // ---------------------------------------------------------------------

  /** Iambic-B mode byte sent by the handshake. */
  const HandshakeMode: byte := 0xC4

  /** The four frames of initWinkeyer, in order: host open goes out through writeBytes, the rest through writeCmd. */
  function HandshakeFrames(c: Config): seq<Frame> {
    [Encode(Admin(0x02)), WriteCmd(OpMode, HandshakeMode, true), SpeedFrame(c.buffered, c.wpm), WriteCmd(OpPinConfig, c.pinCfg, true)]
  }

  /**
   * initWinkeyer against a link that accepts the first `accepts` writes and fails the
   * next one. The firmware-version reply is only logged, so it has no bearing here.
   * Returns what went out whole and whether the handshake succeeded.
   */
  function Handshake(c: Config, accepts: nat): (r: (seq<Frame>, bool))
    ensures r.1 <==> accepts >= 4
    ensures |r.0| == if accepts < 4 then accepts else 4
    ensures forall i :: 0 <= i < |r.0| ==> r.0[i] == HandshakeFrames(c)[i]
    ensures |r.0| >= 1 ==> Decode(r.0[0]) == Some(Admin(0x02))
    ensures |r.0| >= 2 ==> Decode(r.0[1]) == Some(Mode(0xC4))
    ensures |r.0| >= 3 ==> Decode(r.0[2]) == Some(SpeedCommand(c.buffered, c.wpm))
    ensures |r.0| >= 4 ==> Decode(r.0[3]) == Some(PinConfig(c.pinCfg))
  {
    var frames := HandshakeFrames(c);
    if accepts < 4 then (frames[..accepts], false) else (frames, true)
  }

  // ---------------------------------------------------------------------
  // Settings menu: one operand, one two-byte frame, or nothing
  // ---------------------------------------------------------------------

  /** Speed (5-99): frame in the configured variant, and currentWPM follows it. */
  function SetSpeed(c: Config, spd: int): (r: (Config, Option<Frame>))
    ensures r.1.Some? <==> 5 <= spd <= 99
    ensures r.1.Some? ==> Decode(r.1.value) == Some(SpeedCommand(c.buffered, spd)) && r.1.value[1] as int == spd
    ensures r.1.Some? ==> r.0 == c.(wpm := spd)
    ensures r.1.None? ==> r.0 == c
  {
    if spd < 5 || spd > 99 then (c, None)
    else (c.(wpm := spd), Some(SpeedFrame(c.buffered, spd)))
  }

  function WeightingFrame(w: int): (r: Option<Frame>)
    ensures r.Some? <==> 10 <= w <= 90
    ensures r.Some? ==> Decode(r.value) == Some(Weighting(ToByte(w))) && r.value[1] as int == w
  {
    if w < 10 || w > 90 then None
    else Some(WriteCmd(OpWeighting, ToByte(w), true))
  }

  function FarnsworthFrame(f: int): (r: Option<Frame>)
    ensures r.Some? <==> 10 <= f <= 99
    ensures r.Some? ==> Decode(r.value) == Some(Farnsworth(ToByte(f))) && r.value[1] as int == f
  {
    if f < 10 || f > 99 then None
    else Some(WriteCmd(OpFarnsworth, ToByte(f), true))
  }

  function RatioFrame(ratio: int): (r: Option<Frame>)
    ensures r.Some? <==> 33 <= ratio <= 66
    ensures r.Some? ==> Decode(r.value) == Some(Ratio(ToByte(ratio))) && r.value[1] as int == ratio
  {
    if ratio < 33 || ratio > 66 then None
    else Some(WriteCmd(OpRatio, ToByte(ratio), true))
  }

  function CompensationFrame(ms: int): (r: Option<Frame>)
    ensures r.Some? <==> 0 <= ms <= 250
    ensures r.Some? ==> Decode(r.value) == Some(Compensation(ToByte(ms))) && r.value[1] as int == ms
  {
    if ms < 0 || ms > 250 then None
    else Some(WriteCmd(OpCompensation, ToByte(ms), true))
  }

  // ---------------------------------------------------------------------
  // Hardware menu
  // ---------------------------------------------------------------------

  /** PTT lead-in (0-250 ms), sent in tens of ms with the tail field zeroed. */
  function PttLeadFrame(ms: int): (r: Option<Frame>)
    ensures r.Some? <==> 0 <= ms <= 250
    ensures r.Some? ==> |r.value| == 5 && Decode(r.value) == Some(Ptt(ToByte(ms / 10), 0))
  {
    if ms < 0 || ms > 250 then None
    else DecodeEncode(Ptt(ToByte(ms / 10), 0)); Some(Encode(Ptt(ToByte(ms / 10), 0)))
  }

  /** PTT tail (0-250 ms), sent in tens of ms with the lead-in field zeroed. */
  function PttTailFrame(ms: int): (r: Option<Frame>)
    ensures r.Some? <==> 0 <= ms <= 250
    ensures r.Some? ==> |r.value| == 5 && Decode(r.value) == Some(Ptt(0, ToByte(ms / 10)))
  {
    if ms < 0 || ms > 250 then None
    else DecodeEncode(Ptt(0, ToByte(ms / 10))); Some(Encode(Ptt(0, ToByte(ms / 10))))
  }

  /**
   * Both PTT frames carry both delays, so setting one of them always writes zero into
   * the other, and the stored unit is tens of ms: the frame for ms and for ms - ms % 10
   * are the same.
   */
  lemma PttFramesClearOtherDelay(lead: int, tail: int)
    requires 0 <= lead <= 250 && 0 <= tail <= 250
    ensures Decode(PttLeadFrame(lead).value).value.tail == 0
    ensures Decode(PttTailFrame(tail).value).value.lead == 0
    ensures PttLeadFrame(lead) == PttLeadFrame(lead - lead % 10)
    ensures PttTailFrame(tail) == PttTailFrame(tail - tail % 10)
  {
    assert (lead - lead % 10) / 10 == lead / 10;
    assert (tail - tail % 10) / 10 == tail / 10;
  }

  /**
   * Speed-pot range: refused unless max > min >= 1; otherwise the 4-byte frame with the
   * minimum and the span (each truncated to a byte) and the stored range follows.
   */
  function SetPotRange(c: Config, minW: int, maxW: int): (r: (Config, Option<Frame>))
    ensures r.1.Some? <==> 1 <= minW < maxW
    ensures r.1.Some? ==> |r.1.value| == 4
    ensures r.1.Some? ==> Decode(r.1.value) == Some(PotRange(ToByte(minW), ToByte(maxW - minW)))
    ensures r.1.Some? ==> r.0 == c.(potMin := minW, potMax := maxW)
    ensures r.1.None? ==> r.0 == c
    ensures PotRangeOk(c) ==> PotRangeOk(r.0)
  {
    if maxW <= minW || minW < 1 then (c, None)
    else
      var cmd := PotRange(ToByte(minW), ToByte(maxW - minW));
      DecodeEncode(cmd);
      (c.(potMin := minW, potMax := maxW), Some(Encode(cmd)))
  }

  /** The pin-configuration byte that matches the speaker flag, as the toggle writes it. */
  function SpeakerPins(on: bool): byte {
    if on then 0x0F else 0x0D
  }

  /** The speaker flag and the pin byte agree. */
  predicate PinsConsistent(c: Config) {
    c.pinCfg == SpeakerPins(c.speakerOn)
  }

  /**
   * Pin submenu choice 1, 2 or 3: sets pinCfg (and the speaker flag for 1 and 2) and sends it;
   * any other choice sends nothing.
   */
  function PinMenu(c: Config, choice: int): (r: (Config, Option<Frame>))
    ensures r.1.Some? <==> 1 <= choice <= 3
    ensures r.1.Some? ==> Decode(r.1.value) == Some(PinConfig(r.0.pinCfg))
    ensures r.1.None? ==> r.0 == c
    ensures r.0.wpm == c.wpm && r.0.potMin == c.potMin && r.0.potMax == c.potMax && r.0.buffered == c.buffered
    ensures choice == 1 ==> r.0 == c.(pinCfg := 0x0F, speakerOn := true)
    ensures choice == 2 ==> r.0 == c.(pinCfg := 0x0D, speakerOn := false)
    ensures choice == 3 ==> r.0 == c.(pinCfg := 0x07)
    ensures choice == 1 || choice == 2 ==> PinsConsistent(r.0)
  {
    if choice == 1 then PinFrame(c.(pinCfg := 0x0F, speakerOn := true))
    else if choice == 2 then PinFrame(c.(pinCfg := 0x0D, speakerOn := false))
    else if choice == 3 then PinFrame(c.(pinCfg := 0x07))
    else (c, None)
  }

  function PinFrame(c: Config): (r: (Config, Option<Frame>))
    ensures r.0 == c && r.1 == Some(Encode(PinConfig(c.pinCfg)))
    ensures Decode(r.1.value) == Some(PinConfig(c.pinCfg))
  {
    (c, Some(WriteCmd(OpPinConfig, c.pinCfg, true)))
  }

  /** Hardware option 5: flip the speaker flag, derive the pin byte from it and send it. */
  function ToggleSpeaker(c: Config): (r: (Config, Frame))
    ensures r.0.speakerOn == !c.speakerOn
    ensures PinsConsistent(r.0)
    ensures Decode(r.1) == Some(PinConfig(r.0.pinCfg))
    ensures r.0 == c.(speakerOn := r.0.speakerOn, pinCfg := r.0.pinCfg)
  {
    var on := !c.speakerOn;
    (c.(speakerOn := on, pinCfg := SpeakerPins(on)), WriteCmd(OpPinConfig, SpeakerPins(on), true))
  }

  /** Two toggles undo each other once flag and pins agree; a custom pin byte (0x07) is lost. */
  lemma ToggleSpeakerTwice(c: Config)
    ensures PinsConsistent(c) ==> ToggleSpeaker(ToggleSpeaker(c).0).0 == c
    ensures c.pinCfg == 0x07 ==> ToggleSpeaker(ToggleSpeaker(c).0).0.pinCfg != 0x07
  {
  }

  // ---------------------------------------------------------------------
  // Other-options menu
  // ---------------------------------------------------------------------

  /** The keying modes of the mode submenu, in menu order. */
  datatype Keying = IambicB | IambicA | Ultimatic | Bug

  /** The mode submenu's options, in menu order. */
  function KeyingChoice(opt: int): (r: Option<Keying>)
    ensures r.Some? <==> 1 <= opt <= 4
    ensures r == Some(IambicB) <==> opt == 1
    ensures r == Some(IambicA) <==> opt == 2
    ensures r == Some(Ultimatic) <==> opt == 3
    ensures r == Some(Bug) <==> opt == 4
  {
    if opt == 1 then Some(IambicB)
    else if opt == 2 then Some(IambicA)
    else if opt == 3 then Some(Ultimatic)
    else if opt == 4 then Some(Bug)
    else None
  }

  function ModeByte(k: Keying): byte {
    match k
    case IambicB => 0xC4
    case IambicA => 0xD4
    case Ultimatic => 0xE4
    case Bug => 0xF4
  }

  /** Mode submenu: options 1-4 send a mode frame; anything else sends nothing. */
  function ModeFrame(opt: int): (r: Option<Frame>)
    ensures r.Some? <==> 1 <= opt <= 4
    ensures r.Some? ==> |r.value| == 2 && Decode(r.value).Some? && Decode(r.value).value.Mode?
    ensures 1 <= opt <= 4 ==> r == Some([OpMode, (0xC4 + 16 * (opt - 1)) as byte])
    ensures opt == 1 ==> r == Some(HandshakeFrames(Initial)[1])
  {
    match KeyingChoice(opt)
    case None => None
    case Some(k) => Some(WriteCmd(OpMode, ModeByte(k), true))
  }

  /** The four modes differ only in the high nibble, above the fixed low nibble 4. */
  lemma ModeBytesDistinct(a: int, b: int)
    requires ModeFrame(a).Some? && ModeFrame(b).Some?
    ensures ModeFrame(a) == ModeFrame(b) <==> a == b
    ensures ModeFrame(a).value[1] % 16 == 4
  {
  }

  /** Other option 2: switches which opcode every later speed change uses. */
  function ToggleSpeedCommand(c: Config): (r: Config)
    ensures r.buffered == !c.buffered
    ensures SpeedFrame(r.buffered, r.wpm)[0] != SpeedFrame(c.buffered, c.wpm)[0]
    ensures SpeedFrame(r.buffered, r.wpm)[1] == SpeedFrame(c.buffered, c.wpm)[1]
    ensures r == c.(buffered := r.buffered)
  {
    c.(buffered := !c.buffered)
  }

  /** Toggling the speed command twice restores the configuration, and the toggle sends nothing itself. */
  lemma ToggleSpeedCommandTwice(c: Config)
    ensures ToggleSpeedCommand(ToggleSpeedCommand(c)) == c
    ensures ToggleSpeedCommand(c) != c
  {
  }
}

=== FILE: miss_stats.dfy ===
/**
 * The text form of the miss counters: one "key count" line per counter in map order,
 * read back token by token as `fin >> item >> missCount` does, each pair stored with
 * `stats[item] = missCount`, stopping at the first count that is not an integer.
 */
module MissStats {
  import opened Wrappers
  import opened MissTable

  /** std::isspace in the "C" locale. */
  predicate IsSpace(c: char) {
    c == ' ' || c == '\t' || c == '\n' || c == '\r' || c as int == 11 || c as int == 12
  }

  /** A token: non-empty and free of white space. Keys must be tokens to survive the file. */
  predicate IsToken(s: string) {
    |s| > 0 && forall i :: 0 <= i < |s| ==> !IsSpace(s[i])
  }

  predicate IsDigit(c: char) {
    '0' <= c <= '9'
  }

  function DigitChar(d: nat): (c: char)
    requires d < 10
    ensures IsDigit(c) && c as int - '0' as int == d
  {
    ('0' as int + d) as char
  }

  /** Decimal digits of n, most significant first, no leading zeros. */
  function NatString(n: nat): (s: string)
    ensures |s| > 0 && forall i :: 0 <= i < |s| ==> IsDigit(s[i])
  {
    if n < 10 then [DigitChar(n)] else NatString(n / 10) + [DigitChar(n % 10)]
  }

  /** operator<< for an int. */
  function IntString(v: int): (s: string)
    ensures IsToken(s)
    ensures v >= 0 ==> IsDigit(s[0])
  {
    if v < 0 then "-" + NatString(-v) else NatString(v)
  }

  function DigitsValue(ds: string): nat
    requires forall i :: 0 <= i < |ds| ==> IsDigit(ds[i])
  {
    if |ds| == 0 then 0
    else
      assert IsDigit(ds[|ds| - 1]);
      var d: nat := ds[|ds| - 1] as int - '0' as int;
      DigitsValue(ds[..|ds| - 1]) * 10 + d
  }

  predicate AllDigits(s: string) {
    |s| > 0 && forall i :: 0 <= i < |s| ==> IsDigit(s[i])
  }

  /** The range of the 32-bit `int` the counts are read into. */
  predicate FitsInt(v: int) {
    -0x8000_0000 <= v <= 0x7FFF_FFFF
  }

  /** Every count of the table fits the program's `int`. */
  predicate CountsFit(t: Table) {
    forall i :: 0 <= i < |t| ==> FitsInt(t[i].1)
  }

  /** An integer numeral: an optional sign followed by at least one digit, and nothing else. */
  predicate IsNumeral(tok: string) {
    AllDigits(tok) || (|tok| > 1 && (tok[0] == '-' || tok[0] == '+') && AllDigits(tok[1..]))
  }

  /** The value an integer token spells. */
  function TokenValue(tok: string): (r: Option<int>)
    ensures r.Some? <==> IsNumeral(tok)
    ensures r.Some? ==> IsToken(tok)
    ensures AllDigits(tok) ==> r == Some(DigitsValue(tok))
    ensures |tok| > 1 && tok[0] == '+' && AllDigits(tok[1..]) ==> r == Some(DigitsValue(tok[1..]))
    ensures |tok| > 1 && tok[0] == '-' && AllDigits(tok[1..]) ==> r == Some(-(DigitsValue(tok[1..]) as int))
  {
    if |tok| > 0 && (tok[0] == '-' || tok[0] == '+') then
      if AllDigits(tok[1..]) then
        assert forall i :: 1 <= i < |tok| ==> tok[i] == tok[1..][i - 1];
        var n: int := DigitsValue(tok[1..]);
        Some(if tok[0] == '-' then -n else n)
      else None
    else if AllDigits(tok) then Some(DigitsValue(tok))
    else None
  }

  /**
   * `fin >> missCount` on one token: the token's value when it fits an `int`; a value
   * out of range sets the stream's failbit, which ends the read loop like a non-number.
   */
  function ParseInt(tok: string): (r: Option<int>)
    ensures r.Some? ==> FitsInt(r.value) && IsToken(tok)
    ensures r.Some? ==> TokenValue(tok) == r
    ensures TokenValue(tok).Some? && FitsInt(TokenValue(tok).value) ==> r == TokenValue(tok)
  {
    match TokenValue(tok)
    case Some(v) => if FitsInt(v) then Some(v) else None
    case None => None
  }

  lemma {:induction false} NatStringValue(n: nat)
    ensures DigitsValue(NatString(n)) == n
  {
    if n >= 10 {
      var s := NatString(n / 10);
      var full := s + [DigitChar(n % 10)];
      assert full[..|full| - 1] == s;
      NatStringValue(n / 10);
    }
  }

  /** A count is read exactly when its token is a numeral whose value fits an `int`. */
  lemma ReadsExactlyNumerals(tok: string)
    ensures ParseInt(tok).Some? <==> IsNumeral(tok) && FitsInt(TokenValue(tok).value)
  {
  }

  /** A count that fits an `int` reads back as itself. */
  lemma IntStringParses(v: int)
    requires FitsInt(v)
    ensures ParseInt(IntString(v)) == Some(v)
  {
    IntStringValue(v);
  }

  /** A count outside the `int` range does not read back: the read loop stops there. */
  lemma IntStringOverflows(v: int)
    requires !FitsInt(v)
    ensures ParseInt(IntString(v)) == None
  {
    IntStringValue(v);
  }

  lemma IntStringValue(v: int)
    ensures TokenValue(IntString(v)) == Some(v)
  {
    if v < 0 {
      NegativeParses(v);
    } else {
      NonNegativeParses(v);
    }
  }

  lemma NegativeParses(v: int)
    requires v < 0
    ensures TokenValue(IntString(v)) == Some(v)
  {
    var s := NatString(-v);
    var tok := IntString(v);
    assert tok[0] == '-' && tok[1..] == s;
    assert AllDigits(tok[1..]);
    assert DigitsValue(tok[1..]) == -v by {
      NatStringValue(-v);
    }
  }

  lemma NonNegativeParses(v: int)
    requires v >= 0
    ensures TokenValue(IntString(v)) == Some(v)
  {
    var tok := IntString(v);
    assert tok == NatString(v);
    assert tok[0] != '-' && tok[0] != '+';
    assert AllDigits(tok);
    assert DigitsValue(tok) == v by {
      NatStringValue(v);
    }
  }

  /** One line of the file. */
  function Line(e: (string, int)): string {
    e.0 + " " + IntString(e.1) + "\n"
  }

  /** saveMissStats: the lines of all counters, in map order. */
  function Serialize(t: Table): (s: string)
    ensures |s| == 0 <==> |t| == 0
    ensures |t| > 0 ==> s[|s| - 1] == '\n'
    ensures |t| > 0 ==> |t[0].0| < |s| && s[..|t[0].0|] == t[0].0
    decreases |t|
  {
    if |t| == 0 then "" else Line(t[0]) + Serialize(t[1..])
  }

  /** Length of the run of non-space characters at the front of s. */
  function WordEnd(s: string): (n: nat)
    ensures n <= |s|
    ensures forall i :: 0 <= i < n ==> !IsSpace(s[i])
    ensures n < |s| ==> IsSpace(s[n])
    decreases |s|
  {
    if |s| == 0 || IsSpace(s[0]) then 0 else 1 + WordEnd(s[1..])
  }

  /** The white-space separated tokens of s, in order. */
  function Tokens(s: string): (r: seq<string>)
    ensures forall i :: 0 <= i < |r| ==> IsToken(r[i])
    decreases |s|
  {
    if |s| == 0 then []
    else if IsSpace(s[0]) then Tokens(s[1..])
    else
      var n := WordEnd(s);
      [s[..n]] + Tokens(s[n..])
  }

  /** The read loop over the tokens: pairs until a count fails to read as an integer. */
  function Load(toks: seq<string>, acc: Table): (r: Table)
    ensures Sorted(acc) ==> Sorted(r)
    ensures forall k :: Get(acc, k).Some? ==> Get(r, k).Some?
    ensures forall k :: Get(r, k).Some? ==> Get(acc, k).Some? || k in toks
    ensures CountsFit(acc) ==> CountsFit(r)
    ensures |toks| < 2 ==> r == acc
    decreases |toks|
  {
    if |toks| < 2 then acc
    else match ParseInt(toks[1])
      case None => acc
      case Some(v) =>
        PutKeepsFit(acc, toks[0], v);
        assert forall k :: k in toks[2..] ==> k in toks;
        Load(toks[2..], Put(acc, toks[0], v))
  }

  lemma {:induction false} PutKeepsFit(t: Table, k: string, v: int)
    requires FitsInt(v)
    ensures CountsFit(t) ==> CountsFit(Put(t, k, v))
    decreases |t|
  {
    if |t| > 0 && t[0].0 != k && !StrLess(k, t[0].0) && CountsFit(t) {
      assert CountsFit(t[1..]) by {
        assert forall j :: 0 <= j < |t[1..]| ==> t[1..][j] == t[j + 1];
      }
      PutKeepsFit(t[1..], k, v);
    }
  }

  /** loadMissStats on the file's contents. */
  function Parse(s: string): (t: Table)
    ensures Sorted(t) && CountsFit(t)
    ensures forall k :: Get(t, k).Some? ==> IsToken(k) && k in Tokens(s)
  {
    Load(Tokens(s), [])
  }

  lemma {:induction false} WordEndOfToken(w: string, rest: string)
    requires forall i :: 0 <= i < |w| ==> !IsSpace(w[i])
    requires |rest| > 0 && IsSpace(rest[0])
    ensures WordEnd(w + rest) == |w|
    decreases |w|
  {
    if |w| > 0 {
      assert (w + rest)[1..] == w[1..] + rest;
      WordEndOfToken(w[1..], rest);
    }
  }

  lemma TokensOfToken(w: string, rest: string)
    requires IsToken(w)
    requires |rest| > 0 && IsSpace(rest[0])
    ensures Tokens(w + rest) == [w] + Tokens(rest)
  {
    WordEndOfToken(w, rest);
    assert (w + rest)[..|w|] == w;
    assert (w + rest)[|w|..] == rest;
  }

  lemma TokensOfSpace(c: char, rest: string)
    requires IsSpace(c)
    ensures Tokens([c] + rest) == Tokens(rest)
  {
    assert ([c] + rest)[1..] == rest;
  }

  /** The token stream a table's lines yield: key, count, key, count, ... */
  function Pairs(t: Table): seq<string>
    decreases |t|
  {
    if |t| == 0 then [] else [t[0].0, IntString(t[0].1)] + Pairs(t[1..])
  }

  predicate KeysAreTokens(t: Table) {
    forall i :: 0 <= i < |t| ==> IsToken(t[i].0)
  }

  /** A token followed by a blank: the token, then the tokens of what follows the blank. */
  lemma TokenThenSpace(w: string, c: char, rest: string)
    requires IsToken(w) && IsSpace(c)
    ensures Tokens(w + ([c] + rest)) == [w] + Tokens(rest)
  {
    TokensOfToken(w, [c] + rest);
    TokensOfSpace(c, rest);
  }

  /** One line yields its key and its count, and the tokens of what follows it. */
  lemma TokensOfLine(e: (string, int), s: string)
    requires IsToken(e.0)
    ensures Tokens(Line(e) + s) == [e.0, IntString(e.1)] + Tokens(s)
  {
    var c := IntString(e.1);
    assert Line(e) + s == e.0 + ([' '] + (c + (['\n'] + s)));
    TokenThenSpace(e.0, ' ', c + (['\n'] + s));
    TokenThenSpace(c, '\n', s);
  }

  lemma {:induction false} TokensOfSerialize(t: Table)
    requires KeysAreTokens(t)
    ensures Tokens(Serialize(t)) == Pairs(t)
    decreases |t|
  {
    if |t| > 0 {
      assert KeysAreTokens(t[1..]) by {
        assert forall j :: 0 <= j < |t[1..]| ==> t[1..][j] == t[j + 1];
      }
      TokensOfSerialize(t[1..]);
      TokensOfLine(t[0], Serialize(t[1..]));
    }
  }

  /** In a sorted table every key is below every later key. */
  lemma {:induction false} SortedPairwise(t: Table, i: nat, j: nat)
    requires Sorted(t) && i < j < |t|
    ensures StrLess(t[i].0, t[j].0)
    decreases i
  {
    if i == 0 {
      SortedBelow(t[0].0, t[1..]);
      assert t[j] == t[1..][j - 1];
    } else {
      SortedPairwise(t[1..], i - 1, j - 1);
    }
  }

  /** Storing a key above every key present appends it. */
  lemma {:induction false} PutAbove(t: Table, k: string, v: int)
    requires forall i :: 0 <= i < |t| ==> StrLess(t[i].0, k)
    ensures Put(t, k, v) == t + [(k, v)]
    decreases |t|
  {
    if |t| > 0 {
      assert t[0].0 != k && !StrLess(k, t[0].0) by {
        assert StrLess(t[0].0, k);
        StrLessIrreflexive(k);
        if StrLess(k, t[0].0) {
          StrLessTransitive(k, t[0].0, k);
        }
      }
      assert forall i :: 0 <= i < |t[1..]| ==> StrLess(t[1..][i].0, k) by {
        forall i | 0 <= i < |t[1..]| ensures StrLess(t[1..][i].0, k) {
          assert t[1..][i] == t[i + 1];
        }
      }
      PutAbove(t[1..], k, v);
      assert Put(t, k, v) == [t[0]] + Put(t[1..], k, v);
      assert [t[0]] + (t[1..] + [(k, v)]) == t + [(k, v)];
    }
  }

  /** The read loop's step on the first line of a table's token stream. */
  lemma LoadStep(rest: Table, done: Table)
    requires |rest| > 0 && FitsInt(rest[0].1)
    ensures Load(Pairs(rest), done) == Load(Pairs(rest[1..]), Put(done, rest[0].0, rest[0].1))
  {
    var toks := Pairs(rest);
    IntStringParses(rest[0].1);
    assert toks == [rest[0].0, IntString(rest[0].1)] + Pairs(rest[1..]);
    assert toks[1] == IntString(rest[0].1);
    assert toks[2..] == Pairs(rest[1..]);
  }

  /** In a sorted concatenation every key of the front part is below the first key of the back part. */
  lemma FrontBelowBack(done: Table, rest: Table)
    requires Sorted(done + rest) && |rest| > 0
    ensures forall i :: 0 <= i < |done| ==> StrLess(done[i].0, rest[0].0)
  {
    var all := done + rest;
    forall i | 0 <= i < |done|
      ensures StrLess(done[i].0, rest[0].0)
    {
      assert all[i] == done[i] && all[|done|] == rest[0];
      SortedPairwise(all, i, |done|);
    }
  }

  /** Reading the first saved line of the back part appends it to the front part. */
  lemma ReadFirstLine(done: Table, rest: Table)
    requires Sorted(done + rest) && |rest| > 0 && CountsFit(rest)
    ensures Load(Pairs(rest), done) == Load(Pairs(rest[1..]), done + [rest[0]])
    ensures (done + [rest[0]]) + rest[1..] == done + rest && CountsFit(rest[1..])
  {
    assert (done + [rest[0]]) + rest[1..] == done + rest;
    assert CountsFit(rest[1..]) by {
      assert forall j :: 0 <= j < |rest[1..]| ==> rest[1..][j] == rest[j + 1];
    }
    assert FitsInt(rest[0].1);
    FrontBelowBack(done, rest);
    PutAbove(done, rest[0].0, rest[0].1);
    LoadStep(rest, done);
  }

  lemma {:induction false} LoadPairs(done: Table, rest: Table)
    requires Sorted(done + rest) && CountsFit(rest)
    ensures Load(Pairs(rest), done) == done + rest
    decreases |rest|
  {
    if |rest| == 0 {
      assert done + rest == done;
    } else {
      ReadFirstLine(done, rest);
      LoadPairs(done + [rest[0]], rest[1..]);
    }
  }

  /** Reading back what was saved gives the same counters, whenever the keys are tokens and the counts fit an `int`. */
  lemma RoundTrip(t: Table)
    requires Sorted(t) && KeysAreTokens(t) && CountsFit(t)
    ensures Parse(Serialize(t)) == t
  {
    TokensOfSerialize(t);
    assert [] + t == t;
    LoadPairs([], t);
  }

  /**
   * A hand-edited file may hold a negative count, and the reader accepts it. The line
   * `A -1` with the pool ["A"] leaves a total weight of zero, the divisor of the draw.
   */
  lemma NegativeCountEmptiesDraw()
    ensures Parse("A -1\n") == [("A", -1)]
    ensures TotalWeight(Seed(Parse("A -1\n"), ["A"]), ["A"]) == 0
  {
    var e := ("A", -1);
    assert IntString(-1) == "-1";
    assert Line(e) + "" == "A -1\n";
    TokensOfLine(e, "");
    IntStringParses(-1);
    assert Tokens("A -1\n") == ["A", "-1"];
    assert Load(["A", "-1"], []) == Load([], Put([], "A", -1));
  }

  /** A missing or empty file, or one that starts with a count that is not a number, gives no counters. */
  lemma ParseStopsAtBadCount(k: string, bad: string, rest: string)
    requires IsToken(k) && IsToken(bad) && ParseInt(bad).None?
    ensures Parse("") == []
    ensures Parse(k + " " + bad + " " + rest) == []
  {
    assert k + " " + bad + " " + rest == k + ([' '] + (bad + ([' '] + rest)));
    TokenThenSpace(k, ' ', bad + ([' '] + rest));
    TokenThenSpace(bad, ' ', rest);
  }
}

=== FILE: miss_table.dfy ===
/**
 * The spaced-repetition quiz's persistent miss counters. The std::map<string, int> is
 * modelled as an association list kept in the map's iteration order: strictly
 * ascending keys under the character-wise lexicographic order std::string uses.
 * The quiz seeds missing pool items with 0, draws a question with probability
 * proportional to 1 + misses by a cumulative scan, and adds a miss to the question
 * asked when the answer is wrong.
 */
module MissTable {
  import opened Wrappers
  import opened Quiz

  type Table = seq<(string, int)>

  /** std::string's operator<: lexicographic on characters, a proper prefix first. */
  predicate StrLess(a: string, b: string)
    decreases |a|
  {
    if |a| == 0 then |b| > 0
    else if |b| == 0 then false
    else if a[0] != b[0] then a[0] < b[0]
    else StrLess(a[1..], b[1..])
  }

  lemma {:induction false} StrLessIrreflexive(a: string)
    ensures !StrLess(a, a)
    decreases |a|
  {
    if |a| > 0 {
      StrLessIrreflexive(a[1..]);
    }
  }

  lemma {:induction false} StrLessTransitive(a: string, b: string, c: string)
    requires StrLess(a, b) && StrLess(b, c)
    ensures StrLess(a, c)
    decreases |a|
  {
    if |a| > 0 && a[0] == b[0] && b[0] == c[0] {
      StrLessTransitive(a[1..], b[1..], c[1..]);
    }
  }

  lemma {:induction false} StrLessTotal(a: string, b: string)
    requires a != b
    ensures StrLess(a, b) || StrLess(b, a)
    decreases |a|
  {
    if |a| > 0 && |b| > 0 && a[0] == b[0] {
      assert a == [a[0]] + a[1..] && b == [b[0]] + b[1..];
      StrLessTotal(a[1..], b[1..]);
    }
  }

  /** Iteration order of the map: each key below the next. */
  predicate Sorted(t: Table) {
    |t| <= 1 || (StrLess(t[0].0, t[1].0) && Sorted(t[1..]))
  }

  /** x is below every key of t. */
  predicate Below(x: string, t: Table) {
    forall i :: 0 <= i < |t| ==> StrLess(x, t[i].0)
  }

  lemma {:induction false} SortedBelow(x: string, t: Table)
    requires Sorted(t) && (|t| == 0 || StrLess(x, t[0].0))
    ensures Below(x, t)
    decreases |t|
  {
    if |t| > 1 {
      StrLessTransitive(x, t[0].0, t[1].0);
      SortedBelow(x, t[1..]);
      assert forall i :: 1 <= i < |t| ==> t[i] == t[1..][i - 1];
    }
  }

  function Keys(t: Table): set<string> {
    set i | 0 <= i < |t| :: t[i].0
  }

  /** The map's find: the count stored for k, if any. */
  function Get(t: Table, k: string): (r: Option<int>)
    ensures r.Some? <==> k in Keys(t)
    ensures r.Some? ==> exists i :: 0 <= i < |t| && t[i] == (k, r.value)
    decreases |t|
  {
    if |t| == 0 then None
    else if t[0].0 == k then Some(t[0].1)
    else
      var r := Get(t[1..], k);
      assert Keys(t) == {t[0].0} + Keys(t[1..]) by {
        forall x | x in Keys(t) ensures x in {t[0].0} + Keys(t[1..]) {
          var i :| 0 <= i < |t| && t[i].0 == x;
          if i > 0 { assert t[1..][i - 1].0 == x; }
        }
      }
      if r.Some? then
        assert exists i :: 0 <= i < |t| && t[i] == (k, r.value) by {
          var i :| 0 <= i < |t[1..]| && t[1..][i] == (k, r.value);
          assert t[i + 1] == (k, r.value);
        }
        r
      else r
  }

  /** stats[k] = v: overwrite the entry for k, or insert one where the order puts it. */
  function Put(t: Table, k: string, v: int): (r: Table)
    ensures Get(r, k) == Some(v)
    ensures forall k' :: k' != k ==> Get(r, k') == Get(t, k')
    ensures |t| > 0 && StrLess(k, t[0].0) ==> r == [(k, v)] + t
    ensures |r| > 0 && (r[0].0 == k || (|t| > 0 && r[0].0 == t[0].0))
    ensures Sorted(t) ==> Sorted(r)
    ensures NonNegative(t) && v >= 0 ==> NonNegative(r)
    decreases |t|
  {
    if |t| == 0 then [(k, v)]
    else if t[0].0 == k then StrLessIrreflexive(k); [(k, v)] + t[1..]
    else if StrLess(k, t[0].0) then [(k, v)] + t
    else
      var rest := Put(t[1..], k, v);
      StrLessTotal(k, t[0].0);
      assert Sorted(t) ==> Sorted([t[0]] + rest) by {
        if Sorted(t) {
          assert ([t[0]] + rest)[1..] == rest;
        }
      }
      assert Get([t[0]] + rest, k) == Get(rest, k) by {
        assert ([t[0]] + rest)[1..] == rest;
      }
      assert forall k' :: k' != k && k' != t[0].0 ==> Get([t[0]] + rest, k') == Get(rest, k') by {
        assert ([t[0]] + rest)[1..] == rest;
      }
      assert NonNegative(t) ==> NonNegative(t[1..]) by {
        assert forall j :: 0 <= j < |t[1..]| ==> t[1..][j] == t[j + 1];
      }
      [t[0]] + rest
  }

  /** Counts never go below zero: true of a table the quiz itself has built up. */
  predicate NonNegative(t: Table) {
    forall i :: 0 <= i < |t| ==> t[i].1 >= 0
  }

  /** The seeding loop: every pool item that has no counter gets one at 0. */
  function Seed(t: Table, pool: seq<string>): (r: Table)
    ensures forall k :: k in pool ==> Get(r, k).Some?
    ensures forall k :: Get(t, k).Some? ==> Get(r, k) == Get(t, k)
    ensures forall k :: Get(t, k).None? && k in pool ==> Get(r, k) == Some(0)
    ensures forall k :: Get(t, k).None? && k !in pool ==> Get(r, k).None?
    ensures Sorted(t) ==> Sorted(r)
    ensures NonNegative(t) ==> NonNegative(r)
    decreases |pool|
  {
    if |pool| == 0 then t
    else
      var t' := if Get(t, pool[0]).None? then Put(t, pool[0], 0) else t;
      var r := Seed(t', pool[1..]);
      assert forall k :: k in pool ==> k == pool[0] || k in pool[1..];
      r
  }

  /** The weight one entry adds to the draw: 1 + misses for a pool item, nothing otherwise. */
  function Weight(e: (string, int), pool: seq<string>): int {
    if e.0 in pool then 1 + e.1 else 0
  }

  /** totalWeight: the weights of the pool items among the counters. */
  function TotalWeight(t: Table, pool: seq<string>): (w: int)
    ensures (forall i :: 0 <= i < |t| ==> t[i].0 !in pool) ==> w == 0
    ensures NonNegative(t) ==> w >= 0
    decreases |t|
  {
    if |t| == 0 then 0
    else
      assert NonNegative(t) ==> NonNegative(t[1..]) by {
        assert forall j :: 0 <= j < |t[1..]| ==> t[1..][j] == t[j + 1];
      }
      Weight(t[0], pool) + TotalWeight(t[1..], pool)
  }

  /**
   * The cumulative scan: the first pool entry whose running total exceeds r. Written
   * with r reduced by the weight passed over, which compares exactly as the running total does.
   */
  function Scan(t: Table, pool: seq<string>, r: int): (q: Option<string>)
    ensures q.Some? ==> q.value in pool && Get(t, q.value).Some?
    ensures NonNegative(t) && r >= TotalWeight(t, pool) ==> q.None?
    decreases |t|
  {
    if |t| == 0 then None
    else
      assert NonNegative(t) ==> NonNegative(t[1..]) by {
        assert forall j :: 0 <= j < |t[1..]| ==> t[1..][j] == t[j + 1];
      }
      if t[0].0 !in pool then Scan(t[1..], pool, r)
      else if r < 1 + t[0].1 then Some(t[0].0)
      else Scan(t[1..], pool, r - (1 + t[0].1))
  }

  /** Any r in [0, totalWeight) stops the scan on a pool item, so the fallback draw is never needed. */
  lemma {:induction false} ScanSelects(t: Table, pool: seq<string>, r: int)
    requires 0 <= r < TotalWeight(t, pool)
    ensures Scan(t, pool, r).Some? && Scan(t, pool, r).value in pool
    decreases |t|
  {
    if t[0].0 !in pool {
      ScanSelects(t[1..], pool, r);
    } else if r >= 1 + t[0].1 {
      ScanSelects(t[1..], pool, r - (1 + t[0].1));
    }
  }

  /**
   * With counts that are not negative, entry i is drawn for exactly the 1 + misses values
   * of r from the weight of the entries before it on.
   */
  lemma {:induction false} ScanInterval(t: Table, pool: seq<string>, i: nat, r: int)
    requires NonNegative(t)
    requires i < |t| && t[i].0 in pool
    requires TotalWeight(t[..i], pool) <= r < TotalWeight(t[..i], pool) + 1 + t[i].1
    ensures Scan(t, pool, r) == Some(t[i].0)
    decreases i
  {
    if i > 0 {
      assert t[..i][1..] == t[1..][..i - 1];
      assert TotalWeight(t[..i], pool) == Weight(t[0], pool) + TotalWeight(t[1..][..i - 1], pool);
      assert NonNegative(t[1..]) by {
        assert forall j :: 0 <= j < |t[1..]| ==> t[1..][j] == t[j + 1];
      }
      if t[0].0 !in pool {
        ScanInterval(t[1..], pool, i - 1, r);
      } else {
        ScanInterval(t[1..], pool, i - 1, r - (1 + t[0].1));
      }
    }
  }

  /** Once every pool item has a counter, a non-empty pool has a positive total weight. */
  lemma {:induction false} SeededWeightPositive(t: Table, pool: seq<string>)
    requires NonNegative(t) && |pool| > 0 && Get(t, pool[0]).Some?
    ensures TotalWeight(t, pool) > 0
    decreases |t|
  {
    assert NonNegative(t[1..]) by {
      assert forall j :: 0 <= j < |t[1..]| ==> t[1..][j] == t[j + 1];
    }
    if t[0].0 != pool[0] {
      SeededWeightPositive(t[1..], pool);
    }
  }

  /**
   * One draw as the quiz codes it: the cumulative scan for r, and only if that found
   * nothing (an empty name) a uniform pick from the pool with the second random number.
   */
  method Draw(t: Table, pool: seq<string>, r: int, fallback: nat) returns (question: string)
    ensures Scan(t, pool, r).Some? && Scan(t, pool, r).value != "" ==> question == Scan(t, pool, r).value
    ensures (Scan(t, pool, r).None? || Scan(t, pool, r).value == "") && |pool| > 0 ==> question == pool[fallback % |pool|]
  {
    question := "";
    var cumulative := 0;
    var i := 0;
    while i < |t|
      invariant 0 <= i <= |t|
      invariant Scan(t, pool, r) == Scan(t[i..], pool, r - cumulative)
    {
      if t[i].0 in pool {
        cumulative := cumulative + (1 + t[i].1);
        if r < cumulative {
          question := t[i].0;
          break;
        }
      }
      i := i + 1;
    }
    if question == "" && |pool| > 0 {
      question := pool[fallback % |pool|];
    }
  }

  /** A wrong answer adds one miss to the question asked (creating its counter if needed); a right one changes nothing. */
  function RecordAnswer(t: Table, question: string, correct: bool): (r: Table)
    ensures correct ==> r == t
    ensures !correct ==> Get(r, question) == Some(Get(t, question).GetOr(0) + 1)
    ensures forall k :: k != question ==> Get(r, k) == Get(t, k)
    ensures Sorted(t) ==> Sorted(r)
    ensures NonNegative(t) ==> NonNegative(r)
  {
    if correct then t else Put(t, question, Get(t, question).GetOr(0) + 1)
  }
}

=== FILE: practice.dfy ===
/**
 * The untimed practice game: items are shown one at a time, the keyer's echo of what
 * the operator keys builds the typed buffer, a space or line end seals the item, ESC on
 * the keyboard ends the session counting every remaining item wrong, and speed-pot
 * telemetry adjusts the keyer speed along the way.
 */
module Practice {
  import opened Wrappers
  import opened Protocol
  import opened Keyer
  import opened Telemetry
  import opened Input

  /** The session: the shuffled items, the current item, the tallies and the keyer link. */
  datatype Drill = Drill(
    items: seq<string>,
    index: nat,
    typed: string,
    right: nat,
    wrong: nat,
    keyer: Config,
    sent: seq<Frame>,      // every frame written to the keyer during the session
    status: Status)

  predicate WellFormed(d: Drill) {
    && d.index <= |d.items|
    && (d.status.Running? <==> d.index < |d.items| && !d.status.Aborted? && !d.status.Interrupted?)
    && !d.status.Waiting? && !d.status.Cancelled?
  }

  /** The session as the loop enters it: first item up, nothing typed, nothing sent. */
  function Start(items: seq<string>, keyer: Config): (d: Drill)
    ensures WellFormed(d) && Tally(d)
    ensures d.status == (if |items| == 0 then Completed else Running)
    ensures d.items == items && d.keyer == keyer
    ensures d.index == 0 && d.right == 0 && d.wrong == 0 && d.typed == [] && d.sent == []
  {
    Drill(items, 0, [], 0, 0, keyer, [], if |items| == 0 then Completed else Running)
  }

  /** Seal the current item with the given tallies and put up the next one, if any. */
  function Advance(d: Drill, right: nat, wrong: nat): (r: Drill)
    requires d.index < |d.items|
    ensures WellFormed(r)
    ensures r == d.(index := d.index + 1, typed := [], right := right, wrong := wrong, status := r.status)
    ensures r.status == (if r.index == |r.items| then Completed else Running)
  {
    d.(index := d.index + 1, typed := [], right := right, wrong := wrong,
       status := if d.index + 1 == |d.items| then Completed else Running)
  }

  /**
   * One byte read from the keyer while an item is up. A space seals the item, counting
   * it right exactly when the buffer equals the target; any other printable byte appends
   * its upper-case form; a pot reading only retunes the speed; anything else is ignored.
   */
  function OnDevice(d: Drill, b: byte): (r: Drill)
    requires WellFormed(d) && d.status == Running
    ensures b == 0x20 ==> r.index == d.index + 1 && r.typed == []
    ensures b == 0x20 ==> r.right + r.wrong == d.right + d.wrong + 1
    ensures b == 0x20 ==> (r.right == d.right + 1 <==> d.typed == d.items[d.index])
    ensures b == 0x20 ==> r.right == d.right + (if d.typed == d.items[d.index] then 1 else 0)
    ensures b == 0x20 ==> r.wrong == d.wrong + (if d.typed == d.items[d.index] then 0 else 1)
    ensures Classify(b).Echo? && b != 0x20 ==> r == d.(typed := d.typed + [Upper(Classify(b).ch)])
    ensures Classify(b).Status? || Classify(b).Dropped? ==> r == d
    ensures Classify(b).PotReading? ==> r == d.(keyer := r.keyer, sent := r.sent)
  {
    match Classify(b)
    case PotReading(pot) =>
      var (k, frames) := OnPot(d.keyer, pot);
      d.(keyer := k, sent := d.sent + frames)
    case Status => d
    case Dropped => d
    case Echo(c) =>
      match EditFor(c)
      case Seal =>
        if d.typed == d.items[d.index] then Advance(d, d.right + 1, d.wrong)
        else Advance(d, d.right, d.wrong + 1)
      case Erase => d.(typed := Backspace(d.typed))
      case Type(u) => d.(typed := d.typed + [u])
  }

  /**
   * One event. The keyboard is read first and only ESC matters there: any other key is
   * consumed and dropped. Then the device byte, if any, is handled.
   */
  function Step(d: Drill, e: Event): (r: Drill)
    requires WellFormed(d)
    ensures WellFormed(r)
    ensures r.items == d.items
    ensures d.status != Running ==> r == d
    ensures d.index <= r.index <= d.index + 1
    ensures |d.sent| <= |r.sent| <= |d.sent| + 1 && r.sent[..|d.sent|] == d.sent
  {
    if d.status != Running then d
    else match e
      case Interrupt => d.(status := Interrupted)
      case Tick(p) =>
        if p.key == Some(Esc) then
          d.(wrong := d.wrong + (|d.items| - d.index), status := Aborted)
        else if p.device.None? then d
        else OnDevice(d, p.device.value)
  }

  function Run(d: Drill, es: seq<Event>): (r: Drill)
    requires WellFormed(d)
    ensures WellFormed(r)
    ensures r.items == d.items
    decreases |es|
  {
    if |es| == 0 then d else Run(Step(d, es[0]), es[1..])
  }

  /** A run is its first step followed by the rest. */
  lemma RunCons(d: Drill, e: Event, rest: seq<Event>)
    requires WellFormed(d)
    ensures Run(d, [e] + rest) == Run(Step(d, e), rest)
  {
    assert ([e] + rest)[1..] == rest;
  }

  /**
   * Every sealed item is counted exactly once, and when the session ends by finishing or
   * by ESC every item has been counted: right + wrong equals the number of items.
   */
  predicate Tally(d: Drill) {
    && (d.status.Running? || d.status.Interrupted? ==> d.right + d.wrong == d.index)
    && (d.status.Settled() ==> d.right + d.wrong == |d.items|)
  }

  lemma StepKeepsTally(d: Drill, e: Event)
    requires WellFormed(d) && Tally(d)
    ensures Tally(Step(d, e))
  {
  }

  lemma {:induction false} RunKeepsTally(d: Drill, es: seq<Event>)
    requires WellFormed(d) && Tally(d)
    ensures Tally(Run(d, es))
    decreases |es|
  {
    if |es| > 0 {
      StepKeepsTally(d, es[0]);
      RunKeepsTally(Step(d, es[0]), es[1..]);
    }
  }

  /** End of the session: finished or aborted, the counts cover every item exactly. */
  lemma SessionCountsEveryItem(items: seq<string>, k: Config, es: seq<Event>)
    requires Run(Start(items, k), es).status.Settled()
    ensures Run(Start(items, k), es).right + Run(Start(items, k), es).wrong == |items|
  {
    RunKeepsTally(Start(items, k), es);
  }

  /** Once the session is over nothing changes any more; in particular nothing more is sent. */
  lemma {:induction false} RunAfterEnd(d: Drill, es: seq<Event>)
    requires WellFormed(d) && d.status != Running
    ensures Run(d, es) == d
    decreases |es|
  {
    if |es| > 0 {
      RunAfterEnd(Step(d, es[0]), es[1..]);
    }
  }

  /** ESC wins over whatever the device delivers in the same pass. */
  lemma EscWins(d: Drill, dev: Option<byte>, ms: nat)
    requires WellFormed(d) && d.status == Running
    ensures var r := Step(d, Tick(Poll(Some(Esc), dev, ms)));
      && r.status == Aborted
      && r.wrong == d.wrong + (|d.items| - d.index)
      && r.right == d.right && r.index == d.index && r.sent == d.sent
  {
  }

  /** Keys other than ESC are read and thrown away: the pass goes as if no key had come. */
  lemma OtherKeysIgnored(d: Drill, key: byte, dev: Option<byte>, ms: nat, ms': nat)
    requires WellFormed(d) && key != Esc
    ensures Step(d, Tick(Poll(Some(key), dev, ms))) == Step(d, Tick(Poll(None, dev, ms')))
  {
  }

  /**
   * A terminator echo seals the item and adds one to exactly one tally, right precisely
   * when the buffer equals the target as written.
   */
  lemma TerminatorSeals(d: Drill, b: byte)
    requires WellFormed(d) && d.status == Running
    requires Classify(b).Echo? && IsTerminator(Classify(b).ch)
    ensures var r := OnDevice(d, b);
      && r.index == d.index + 1 && r.typed == []
      && r.right + r.wrong == d.right + d.wrong + 1
      && (r.right == d.right + 1 <==> d.typed == d.items[d.index])
      && r.right == d.right + (if d.typed == d.items[d.index] then 1 else 0)
      && r.wrong == d.wrong + (if d.typed == d.items[d.index] then 0 else 1)
      && r.sent == d.sent && r.keyer == d.keyer
  {
  }

  /**
   * While an item stays up its buffer only grows, by at most one upper-cased character
   * per pass: the backspace branch cannot be reached.
   */
  lemma BufferOnlyGrows(d: Drill, e: Event)
    requires WellFormed(d) && d.status == Running
    requires Step(d, e).index == d.index
    ensures var t := Step(d, e).typed;
      && |d.typed| <= |t| <= |d.typed| + 1
      && t[..|d.typed|] == d.typed
      && (|t| > |d.typed| ==> !IsLower(t[|t| - 1]) && !IsTerminator(t[|t| - 1]))
    ensures e.Tick? && e.poll.key != Some(Esc) && e.poll.device.Some? && Classify(e.poll.device.value).Echo?
      ==> Step(d, e).typed == d.typed + [Upper(Classify(e.poll.device.value).ch)]
  {
    if e.Tick? && e.poll.key != Some(Esc) && e.poll.device.Some? {
      var b := e.poll.device.value;
      if Classify(b).Echo? {
        EchoNeverErases(b);
      }
    }
  }

  /** The buffer stays clean for the whole session. */
  predicate BufferClean(d: Drill) {
    Clean(d.typed)
  }

  lemma StepKeepsClean(d: Drill, e: Event)
    requires WellFormed(d) && BufferClean(d)
    ensures BufferClean(Step(d, e))
  {
    if d.status == Running && e.Tick? && e.poll.key != Some(Esc) && e.poll.device.Some? {
      var b := e.poll.device.value;
      if Classify(b).Echo? {
        EchoNeverErases(b);
        if EditFor(Classify(b).ch).Type? {
          TypeKeepsClean(d.typed, b);
        }
      }
    }
  }

  /**
   * The comparison is exact and the buffer holds no lower case, so an item whose target
   * contains a lower-case letter (possible for word-list entries) is never counted right.
   */
  lemma LowercaseTargetNeverRight(d: Drill, e: Event, j: nat)
    requires WellFormed(d) && d.status == Running && BufferClean(d)
    requires j < |d.items[d.index]| && IsLower(d.items[d.index][j])
    ensures Step(d, e).right == d.right
  {
    assert d.typed != d.items[d.index] by {
      assert |d.typed| <= j || !IsLower(d.typed[j]);
    }
  }

  /** Telemetry never touches the item, the buffer or the tallies. */
  lemma TelemetryOrthogonal(d: Drill, b: byte)
    requires WellFormed(d) && d.status == Running && Classify(b).PotReading?
    ensures var r := OnDevice(d, b);
      && r == d.(keyer := r.keyer, sent := r.sent)
      && r.keyer == OnPot(d.keyer, Classify(b).pot).0
      && r.sent == d.sent + OnPot(d.keyer, Classify(b).pot).1
  {
  }
}

=== FILE: protocol.dfy ===
/**
 * The host-to-keyer command frames of the WinKeyer host protocol, exactly in the
 * layouts the trainer emits them, together with a decoder that reads a frame back
 * into the command it carries. The decoder is the device's view of the wire and
 * serves as the independent partner of every frame builder.
 */
module Protocol {
  import opened Wrappers

  /** An unsigned char: the unit of the serial link. */
  newtype byte = x: int | 0 <= x < 256

  type Frame = seq<byte>

  /** One host command, with its operands as the bytes that go on the wire. */
  datatype Command =
    | Admin(sub: byte)                  // 0x00 <sub>; sub 0x02 opens host mode
    | Speed(wpm: byte)                  // 0x02 <wpm>, immediate speed change
    | Weighting(percent: byte)          // 0x03 <percent>
    | Ptt(lead: byte, tail: byte)        // 0x04 <lead> <tail> 0 0, in tens of ms
    | PotRange(min: byte, span: byte)    // 0x05 <min> <span> 0
    | PinConfig(bits: byte)             // 0x09 <bits>
    | Farnsworth(wpm: byte)             // 0x0D <wpm>
    | Mode(bits: byte)                  // 0x0E <bits>
    | Compensation(ms: byte)            // 0x11 <ms>
    | Ratio(ratio: byte)                // 0x17 <ratio>
    | BufferedSpeed(wpm: byte)          // 0x1C <wpm>, speed change queued behind buffered text

  const OpAdmin: byte := 0x00
  const OpSpeed: byte := 0x02
  const OpWeighting: byte := 0x03
  const OpPtt: byte := 0x04
  const OpPotRange: byte := 0x05
  const OpPinConfig: byte := 0x09
  const OpFarnsworth: byte := 0x0D
  const OpMode: byte := 0x0E
  const OpCompensation: byte := 0x11
  const OpRatio: byte := 0x17
  const OpBufferedSpeed: byte := 0x1C

  /** Truncation of an int to an unsigned char, as C++'s static_cast<unsigned char> does. */
  function ToByte(x: int): (b: byte)
    ensures b as int == x % 256
    ensures 0 <= x < 256 ==> b as int == x
  {
    (x % 256) as byte
  }

  /**
   * The bytes of one command: the opcode, then the operands. The PTT and pot-range
   * commands have fixed multi-field layouts padded with zeros; every other command is
   * the opcode and one operand, what writeCmd sends with twoBytes set.
   */
  function Encode(c: Command): (f: Frame)
    ensures |f| == (if c.Ptt? then 5 else if c.PotRange? then 4 else 2)
    ensures f[0] == Opcode(c)
    ensures c.Ptt? ==> f[3] == 0 && f[4] == 0
    ensures c.PotRange? ==> f[3] == 0
  {
    match c
    case Admin(s) => [OpAdmin, s]
    case Speed(w) => [OpSpeed, w]
    case Weighting(p) => [OpWeighting, p]
    case Ptt(l, t) => [OpPtt, l, t, 0, 0]
    case PotRange(m, s) => [OpPotRange, m, s, 0]
    case PinConfig(b) => [OpPinConfig, b]
    case Farnsworth(w) => [OpFarnsworth, w]
    case Mode(b) => [OpMode, b]
    case Compensation(ms) => [OpCompensation, ms]
    case Ratio(r) => [OpRatio, r]
    case BufferedSpeed(w) => [OpBufferedSpeed, w]
  }

  /** Reads one whole frame back; anything that is not exactly one known layout is refused. */
  function Decode(f: Frame): (r: Option<Command>)
    ensures r.Some? ==> |f| == (if r.value.Ptt? then 5 else if r.value.PotRange? then 4 else 2)
    ensures r.Some? ==> f[0] == Opcode(r.value)
    ensures |f| < 2 || |f| == 3 || |f| > 5 ==> r.None?
  {
    if |f| == 2 then
      var op, x := f[0], f[1];
      if op == OpAdmin then Some(Admin(x))
      else if op == OpSpeed then Some(Speed(x))
      else if op == OpWeighting then Some(Weighting(x))
      else if op == OpPinConfig then Some(PinConfig(x))
      else if op == OpFarnsworth then Some(Farnsworth(x))
      else if op == OpMode then Some(Mode(x))
      else if op == OpCompensation then Some(Compensation(x))
      else if op == OpRatio then Some(Ratio(x))
      else if op == OpBufferedSpeed then Some(BufferedSpeed(x))
      else None
    else if |f| == 4 && f[0] == OpPotRange && f[3] == 0 then Some(PotRange(f[1], f[2]))
    else if |f| == 5 && f[0] == OpPtt && f[3] == 0 && f[4] == 0 then Some(Ptt(f[1], f[2]))
    else None
  }

  function Opcode(c: Command): byte {
    match c
    case Admin(_) => OpAdmin
    case Speed(_) => OpSpeed
    case Weighting(_) => OpWeighting
    case Ptt(_, _) => OpPtt
    case PotRange(_, _) => OpPotRange
    case PinConfig(_) => OpPinConfig
    case Farnsworth(_) => OpFarnsworth
    case Mode(_) => OpMode
    case Compensation(_) => OpCompensation
    case Ratio(_) => OpRatio
    case BufferedSpeed(_) => OpBufferedSpeed
  }

  /** Every command survives the wire. */
  lemma DecodeEncode(c: Command)
    ensures Decode(Encode(c)) == Some(c)
  {
  }

  /** A frame the decoder accepts is the encoding of what it decoded to: the layouts are unambiguous. */
  lemma EncodeDecode(f: Frame)
    requires Decode(f).Some?
    ensures Encode(Decode(f).value) == f
  {
  }

  /** Distinct commands never share a frame. */
  lemma EncodeInjective(c: Command, d: Command)
    requires Encode(c) == Encode(d)
    ensures c == d
  {
    DecodeEncode(c);
    DecodeEncode(d);
  }

  /** writeCmd: the first byte, followed by the second only when the frame is a two-byte one. */
  function WriteCmd(c1: byte, c2: byte, twoBytes: bool): (f: Frame)
    ensures |f| == (if twoBytes then 2 else 1)
    ensures f[0] == c1
    ensures twoBytes ==> f[1] == c2
  {
    if twoBytes then [c1, c2] else [c1]
  }

  /** Every two-byte command is exactly what writeCmd sends for its opcode and operand. */
  lemma WriteCmdCarriesCommand(c: Command)
    requires !c.Ptt? && !c.PotRange?
    ensures Decode(WriteCmd(Opcode(c), Encode(c)[1], true)) == Some(c)
    ensures Decode(WriteCmd(Opcode(c), Encode(c)[1], false)).None?
  {
    assert WriteCmd(Opcode(c), Encode(c)[1], true) == Encode(c);
    DecodeEncode(c);
  }
}

=== FILE: quiz.dfy ===
/**
 * The plain list work of the receiving-practice side: comparing an answer with the
 * question regardless of case, picking the most-missed item for the quiz summary,
 * filtering a word list, and clamping the Farnsworth speed.
 */
module Quiz {

  /** std::tolower in the "C" locale. */
  function ToLower(c: char): (l: char)
    ensures 'A' <= c <= 'Z' ==> l as int == c as int + 32
    ensures !('A' <= c <= 'Z') ==> l == c
  {
    if 'A' <= c <= 'Z' then (c as int + 32) as char else c
  }

  function LowerAll(s: string): (r: string)
    ensures |r| == |s|
    ensures forall i :: 0 <= i < |s| ==> r[i] == ToLower(s[i])
  {
    if |s| == 0 then [] else [ToLower(s[0])] + LowerAll(s[1..])
  }

  /** The quizzes lower-case both sides and compare the strings. */
  predicate AnswerMatches(question: string, answer: string)
    ensures AnswerMatches(question, answer) ==> |question| == |answer|
    ensures question == answer ==> AnswerMatches(question, answer)
  {
    LowerAll(question) == LowerAll(answer)
  }

  /** Equal lengths and equal characters up to case, position by position. */
  lemma AnswerMatchesIff(q: string, a: string)
    ensures AnswerMatches(q, a) <==> |q| == |a| && forall i :: 0 <= i < |q| ==> ToLower(q[i]) == ToLower(a[i])
  {
    if |q| == |a| && forall i :: 0 <= i < |q| ==> ToLower(q[i]) == ToLower(a[i]) {
      assert LowerAll(q) == LowerAll(a);
    }
  }

  /** Matching is an equivalence, so judging the same answer twice gives the same verdict. */
  lemma AnswerMatchesEquivalence(q: string, a: string, b: string)
    ensures AnswerMatches(q, q)
    ensures AnswerMatches(q, a) ==> AnswerMatches(a, q)
    ensures AnswerMatches(q, a) && AnswerMatches(a, b) ==> AnswerMatches(q, b)
  {
  }

  /**
   * The spaced-repetition quiz reads a single key as the answer, so a question longer than
   * one character (a two-letter prosign) can never be answered right there.
   */
  lemma SingleKeyAnswersOnlyOneCharQuestions(q: string, key: char)
    requires AnswerMatches(q, [key])
    ensures |q| == 1 && ToLower(q[0]) == ToLower(key)
  {
    AnswerMatchesIff(q, [key]);
  }

  /** Misses of one quiz item: times asked less times right (a missing entry reads as 0). */
  function Misses(entry: (string, int), correct: map<string, int>): int {
    entry.1 - (if entry.0 in correct then correct[entry.0] else 0)
  }

  /** Entry i is `item`, missed `most` times, and no earlier entry was missed as often. */
  predicate FirstWithMisses(asked: seq<(string, int)>, correct: map<string, int>, i: int, item: string, most: int) {
    && 0 <= i < |asked|
    && asked[i].0 == item
    && Misses(asked[i], correct) == most
    && forall j :: 0 <= j < i ==> Misses(asked[j], correct) < most
  }

  /**
   * The summary scan over the attempt counts, in the map's order: the first item with the
   * strictly greatest positive miss count, or "" and 0 when nothing was missed.
   */
  method MostMissed(asked: seq<(string, int)>, correct: map<string, int>) returns (item: string, most: int)
    ensures most >= 0
    ensures forall i :: 0 <= i < |asked| ==> Misses(asked[i], correct) <= most
    ensures most == 0 ==> item == ""
    ensures most > 0 ==> exists i :: FirstWithMisses(asked, correct, i, item, most)
  {
    item, most := "", 0;
    var k := 0;
    ghost var at := 0;
    while k < |asked|
      invariant 0 <= k <= |asked|
      invariant most >= 0
      invariant forall i :: 0 <= i < k ==> Misses(asked[i], correct) <= most
      invariant most == 0 ==> item == ""
      invariant most > 0 ==> at < k && FirstWithMisses(asked, correct, at, item, most)
    {
      var m := Misses(asked[k], correct);
      if m > most {
        most, item := m, asked[k].0;
        at := k;
      }
      k := k + 1;
    }
  }

  /** The Farnsworth speed may not exceed the character speed. */
  function EffectiveWpm(wpm: int, farnsworth: int): (r: int)
    ensures r <= wpm
    ensures r == farnsworth || r == wpm
    ensures farnsworth <= wpm ==> r == farnsworth
  {
    if farnsworth > wpm then wpm else farnsworth
  }

  lemma EffectiveWpmIdempotent(wpm: int, farnsworth: int)
    ensures EffectiveWpm(wpm, EffectiveWpm(wpm, farnsworth)) == EffectiveWpm(wpm, farnsworth)
    ensures EffectiveWpm(wpm, farnsworth) == if farnsworth < wpm then farnsworth else wpm
  {
  }

  /** std::isalpha in the "C" locale. */
  predicate IsAlpha(c: char) {
    'A' <= c <= 'Z' || 'a' <= c <= 'z'
  }

  /**
   * The word filters: exactly `len` characters, and for the keyer practice word list
   * also letters only.
   */
  predicate Wanted(w: string, len: int, lettersOnly: bool) {
    |w| == len && (lettersOnly ==> forall i :: 0 <= i < |w| ==> IsAlpha(w[i]))
  }

  /** The wanted words, in their original order. */
  function Select(words: seq<string>, len: int, lettersOnly: bool): (r: seq<string>)
    ensures |r| <= |words|
    ensures forall i :: 0 <= i < |r| ==> Wanted(r[i], len, lettersOnly) && r[i] in words
    ensures (forall i :: 0 <= i < |words| ==> Wanted(words[i], len, lettersOnly)) ==> r == words
    decreases |words|
  {
    if |words| == 0 then []
    else
      var init := Select(words[..|words| - 1], len, lettersOnly);
      var w := words[|words| - 1];
      assert words == words[..|words| - 1] + [w];
      assert forall x :: x in words[..|words| - 1] ==> x in words;
      if Wanted(w, len, lettersOnly) then init + [w] else init
  }

  /** A word is selected exactly when it is in the list and wanted. */
  lemma {:induction false} SelectMembers(words: seq<string>, len: int, lettersOnly: bool, w: string)
    ensures w in Select(words, len, lettersOnly) <==> w in words && Wanted(w, len, lettersOnly)
    decreases |words|
  {
    if |words| > 0 {
      var init := words[..|words| - 1];
      assert words == init + [words[|words| - 1]];
      SelectMembers(init, len, lettersOnly, w);
    }
  }

  /** Selection works piecewise, which is to say it keeps the order of the list. */
  lemma {:induction false} SelectAppend(a: seq<string>, b: seq<string>, len: int, lettersOnly: bool)
    ensures Select(a + b, len, lettersOnly) == Select(a, len, lettersOnly) + Select(b, len, lettersOnly)
    decreases |b|
  {
    if |b| == 0 {
      assert a + b == a;
    } else {
      var b' := b[..|b| - 1];
      assert (a + b)[..|a + b| - 1] == a + b';
      assert (a + b)[|a + b| - 1] == b[|b| - 1];
      SelectAppend(a, b', len, lettersOnly);
    }
  }

  /** Selecting over one more word decides that word alone. */
  lemma SelectSnoc(ws: seq<string>, w: string, len: int, lettersOnly: bool)
    ensures Select(ws + [w], len, lettersOnly)
         == Select(ws, len, lettersOnly) + (if Wanted(w, len, lettersOnly) then [w] else [])
  {
    var all := ws + [w];
    assert all[..|all| - 1] == ws && all[|all| - 1] == w;
  }

  /** The inner loop of the letters-only filter: every character passes isalpha. */
  method AllLetters(w: string) returns (ok: bool)
    ensures ok <==> forall t :: 0 <= t < |w| ==> IsAlpha(w[t])
  {
    ok := true;
    var j := 0;
    while j < |w|
      invariant 0 <= j <= |w|
      invariant ok <==> forall t :: 0 <= t < j ==> IsAlpha(w[t])
    {
      ok := ok && IsAlpha(w[j]);
      j := j + 1;
    }
  }

  /** The filtering loops of the word modes. */
  method FilterWords(words: seq<string>, len: int, lettersOnly: bool) returns (kept: seq<string>)
    ensures kept == Select(words, len, lettersOnly)
  {
    kept := [];
    var i := 0;
    while i < |words|
      invariant 0 <= i <= |words|
      invariant kept == Select(words[..i], len, lettersOnly)
    {
      var w := words[i];
      var lettersOk := true;
      if lettersOnly {
        lettersOk := AllLetters(w);
      }
      assert words[..i + 1] == words[..i] + [w];
      SelectSnoc(words[..i], w, len, lettersOnly);
      if |w| == len && lettersOk {
        kept := kept + [w];
      }
      i := i + 1;
    }
    assert words[..|words|] == words;
  }
}

=== FILE: scenarios.dfy ===
/**
 * Whole sessions on concrete inputs: the keyer echoes what the operator keys, one
 * byte per pass of the polling loop.
 */
module Scenarios {
  import opened Wrappers
  import opened Protocol
  import opened Keyer
  import opened Telemetry
  import opened Input
  import Practice
  import SpeedPractice

  function Heard(b: byte): Event {
    Tick(Poll(None, Some(b), 0))
  }

  /** Two letters keyed right, each sealed by a space. */
  lemma TwoItemsRight(k: Config)
    ensures var r := Practice.Run(Practice.Start(["A", "B"], k), [Heard(0x41), Heard(0x20), Heard(0x42), Heard(0x20)]);
      r.status == Completed && r.right == 2 && r.wrong == 0 && r.sent == []
  {
    var d0 := Practice.Drill(["A", "B"], 0, [], 0, 0, k, [], Running);
    var d4 := d0.(index := 2, right := 2, status := Completed);
    assert Practice.Run(d0, [Heard(0x41), Heard(0x20), Heard(0x42), Heard(0x20)]) == d4 by {
      var d1 := d0.(typed := "A");
      var d2 := d0.(index := 1, right := 1);
      var d3 := d2.(typed := "B");
      assert Practice.Step(d0, Heard(0x41)) == d1 by {
        assert Classify(0x41) == Echo('A') && EditFor('A') == Type('A');
      }
      assert Practice.Step(d1, Heard(0x20)) == d2 by {
        assert Classify(0x20) == Echo(' ') && EditFor(' ') == Seal;
      }
      assert Practice.Step(d2, Heard(0x42)) == d3 by {
        assert Classify(0x42) == Echo('B') && EditFor('B') == Type('B');
      }
      assert Practice.Step(d3, Heard(0x20)) == d4 by {
        assert Classify(0x20) == Echo(' ') && EditFor(' ') == Seal;
      }
      Practice.RunCons(d0, Heard(0x41), [Heard(0x20), Heard(0x42), Heard(0x20)]);
      Practice.RunCons(d1, Heard(0x20), [Heard(0x42), Heard(0x20)]);
      Practice.RunCons(d2, Heard(0x42), [Heard(0x20)]);
      Practice.RunCons(d3, Heard(0x20), []);
    }
    assert Practice.Start(["A", "B"], k) == d0;
  }

  /** Keyed in lower case, the echo is upper-cased and still matches. */
  lemma LowerCaseEchoMatches(k: Config)
    ensures var r := Practice.Run(Practice.Start(["K"], k), [Heard(0x6B), Heard(0x20)]);
      r.status == Completed && r.right == 1
  {
    var d0 := Practice.Drill(["K"], 0, [], 0, 0, k, [], Running);
    var d1 := d0.(typed := "K");
    var d2 := d0.(index := 1, right := 1, status := Completed);
    assert Practice.Step(d0, Heard(0x6B)) == d1 by {
      assert Classify(0x6B) == Echo('k') && EditFor('k') == Type('K');
    }
    assert Practice.Step(d1, Heard(0x20)) == d2 by {
      assert Classify(0x20) == Echo(' ') && EditFor(' ') == Seal;
    }
    Practice.RunCons(d0, Heard(0x6B), [Heard(0x20)]);
    Practice.RunCons(d1, Heard(0x20), []);
    assert Practice.Start(["K"], k) == d0;
  }

  /**
   * A carriage return from the keyer is a control byte: the printable test drops it
   * before the terminator test is reached, so it does not seal the item.
   */
  lemma CarriageReturnDoesNotSeal(k: Config)
    ensures var d := Practice.Start(["A"], k);
      Practice.Step(d, Heard(0x0D)) == d
  {
    var d0 := Practice.Drill(["A"], 0, [], 0, 0, k, [], Running);
    assert Classify(0x0D) == Dropped;
    assert Practice.Step(d0, Heard(0x0D)) == d0;
    assert Practice.Start(["A"], k) == d0;
  }

  /**
   * ESC during item 2 of 5: items 2 to 5 are charged wrong at once, and whatever comes
   * afterwards (here a pot reading that would change the speed) is never acted on.
   */
  lemma EscDuringSecondItem(k: Config, later: seq<Event>)
    ensures var r := Practice.Run(Practice.Start(["A", "B", "C", "D", "E"], k),
                                  [Heard(0x41), Heard(0x20), Tick(Poll(Some(Esc), Some(0x9F), 0))] + later);
      r.status == Aborted && r.right == 1 && r.wrong == 4 && r.sent == []
  {
    var esc := Tick(Poll(Some(Esc), Some(0x9F), 0));
    var d0 := Practice.Drill(["A", "B", "C", "D", "E"], 0, [], 0, 0, k, [], Running);
    var d1 := d0.(typed := "A");
    var d2 := d0.(index := 1, right := 1);
    var d3 := d2.(wrong := 4, status := Aborted);
    assert Practice.Step(d0, Heard(0x41)) == d1 by {
      assert Classify(0x41) == Echo('A') && EditFor('A') == Type('A');
    }
    assert Practice.Step(d1, Heard(0x20)) == d2 by {
      assert Classify(0x20) == Echo(' ') && EditFor(' ') == Seal;
    }
    assert Practice.Step(d2, esc) == d3;
    assert [Heard(0x41), Heard(0x20), esc] + later == [Heard(0x41)] + ([Heard(0x20)] + ([esc] + later));
    Practice.RunCons(d0, Heard(0x41), [Heard(0x20)] + ([esc] + later));
    Practice.RunCons(d1, Heard(0x20), [esc] + later);
    Practice.RunCons(d2, esc, later);
    Practice.RunAfterEnd(d3, later);
    assert Practice.Start(["A", "B", "C", "D", "E"], k) == d0;
  }

  /** Timed mode under any keyer settings, 1 s limit, nothing keyed: the item times out and is listed with an empty answer. */
  lemma TimeoutWithNothingTyped(k: Config)
    ensures var r := SpeedPractice.Run(SpeedPractice.Start(["K"], 1000, k),
                                       [Tick(Poll(Some(0x0D), None, 0)), Tick(Poll(None, None, 400)), Tick(Poll(None, None, 1000))]);
      r.status == Completed && r.right == 0 && r.wrong == 1 && r.missed == [("K", "")]
  {
    var es := [Tick(Poll(Some(0x0D), None, 0)), Tick(Poll(None, None, 400)), Tick(Poll(None, None, 1000))];
    var d0 := SpeedPractice.Sprint(["K"], 0, [], 0, 0, [], 1000, k, [], Waiting);
    var d1 := SpeedPractice.Step(d0, es[0]);
    var d2 := SpeedPractice.Step(d1, es[1]);
    var d3 := SpeedPractice.Step(d2, es[2]);
    assert d1.status == Running && d2 == d1;
    assert SpeedPractice.Run(d0, es) == SpeedPractice.Run(d1, es[1..]);
    assert SpeedPractice.Run(d1, es[1..]) == SpeedPractice.Run(d2, es[2..]);
    assert SpeedPractice.Run(d2, es[2..]) == SpeedPractice.Run(d3, []);
    assert SpeedPractice.Start(["K"], 1000, k) == d0;
  }

  /**
   * Pot position 20 under a 5..35 range at 20 WPM with the direct speed command (the
   * initial settings among them): 5 + 20 * 30 / 31 = 24 WPM, one direct speed frame.
   */
  lemma PotReadingMidItem(k: Config)
    requires k.potMin == 5 && k.potMax == 35 && k.wpm == 20 && !k.buffered
    ensures var r := Practice.Run(Practice.Start(["A"], k), [Heard(0x94)]);
      && r.keyer.wpm == 24 && r.sent == [[0x02, 24]]
      && r.status == Running && r.typed == [] && r.right == 0 && r.wrong == 0
  {
    var d0 := Practice.Drill(["A"], 0, [], 0, 0, k, [], Running);
    var d1 := d0.(keyer := k.(wpm := 24), sent := [[0x02, 24]]);
    assert Practice.Step(d0, Heard(0x94)) == d1 by {
      assert Classify(0x94) == PotReading(20);
      assert OnPot(k, 20) == (k.(wpm := 24), [[0x02, 24]]) by {
        assert PotWpm(5, 35, 20) == 24;
      }
    }
    Practice.RunCons(d0, Heard(0x94), []);
    assert Practice.Start(["A"], k) == d0;
  }

  /**
   * A pot position with bit 6 set cannot be sent: 0x80 | 65 is 0xC1, a status byte, and
   * the loop ignores it.
   */
  lemma HighPotPositionIsStatus(k: Config)
    ensures Classify(0x80 + 65) == Status
    ensures var d := Practice.Start(["A"], k);
      Practice.Step(d, Heard(0x80 + 65)) == d
  {
    var d0 := Practice.Drill(["A"], 0, [], 0, 0, k, [], Running);
    assert Classify(0x80 + 65) == Status;
    assert Practice.Step(d0, Heard(0x80 + 65)) == d0;
    assert Practice.Start(["A"], k) == d0;
  }

  /** The handshake with the initial settings over a healthy link, and over one that fails at the third write. */
  lemma InitialHandshake()
    ensures Handshake(Initial, 4) == ([[0x00, 0x02], [0x0E, 0xC4], [0x02, 20], [0x09, 0x0F]], true)
    ensures Handshake(Initial, 2) == ([[0x00, 0x02], [0x0E, 0xC4]], false)
  {
    var all := [[0x00, 0x02], [0x0E, 0xC4], [0x02, 20], [0x09, 0x0F]];
    assert HandshakeFrames(Initial) == all;
    assert all[..2] == [[0x00, 0x02], [0x0E, 0xC4]];
  }
}

=== FILE: speed_practice.dfy ===
/**
 * The timed practice game. It waits for space/enter before the first item, gives each
 * item a time limit, trims the buffer before comparing, and lists every miss. The
 * deadline test at the end of each pass does not look at whether the pass already
 * sealed the item, so an item sealed in the pass that reaches the limit is counted a
 * second time, as wrong. `Step` keeps that behaviour; `StepCorrected` skips the
 * deadline test once the item is sealed.
 */
module SpeedPractice {
  import opened Wrappers
  import opened Protocol
  import opened Keyer
  import opened Telemetry
  import opened Input

  /** A missed item: the target and the trimmed answer (empty when nothing was keyed). */
  type Miss = (string, string)

  datatype Sprint = Sprint(
    items: seq<string>,
    index: nat,
    typed: string,
    right: nat,
    wrong: nat,
    missed: seq<Miss>,
    limitMs: nat,
    keyer: Config,
    sent: seq<Frame>,
    status: Status)

  predicate WellFormed(d: Sprint) {
    && d.index <= |d.items|
    && (d.status.Running? <==> d.index < |d.items| && !d.status.Waiting? && !d.status.Aborted? && !d.status.CutShort())
    && (d.status.Waiting? || d.status.Cancelled? ==> d.index == 0 && d.right == 0 && d.wrong == 0 && d.missed == [])
    && (d.status == Waiting ==> d.typed == [])
  }

  /** The setup screen: nothing counted, waiting for the operator to begin. */
  function Start(items: seq<string>, limitMs: nat, keyer: Config): (d: Sprint)
    ensures WellFormed(d) && d.status == Waiting
    ensures d.items == items && d.limitMs == limitMs && d.keyer == keyer
    ensures d.index == 0 && d.right == 0 && d.wrong == 0 && d.typed == [] && d.missed == [] && d.sent == []
  {
    Sprint(items, 0, [], 0, 0, [], limitMs, keyer, [], Waiting)
  }

  /** The ready gate: only the keyboard is read; ESC leaves without a result, a terminator begins. */
  function Gate(d: Sprint, e: Event): (r: Sprint)
    requires WellFormed(d) && d.status == Waiting
    ensures WellFormed(r)
    ensures r == d.(status := r.status)
    ensures e.Tick? && e.poll.key == Some(Esc) ==> r.status == Cancelled
    ensures r.status.Running? || r.status.Completed? ==> e.Tick? && e.poll.key.Some? && e.poll.key.value in {0x20, 0x0D, 0x0A}
    ensures r.status.Interrupted? <==> e.Interrupt?
    ensures e.Tick? && e.poll.key.Some? && e.poll.key.value in {0x20, 0x0D, 0x0A}
      ==> r.status == (if |d.items| == 0 then Completed else Running)
    ensures e.Tick? && (e.poll.key.None? || e.poll.key.value !in {Esc, 0x20, 0x0D, 0x0A}) ==> r == d
  {
    match e
    case Interrupt => d.(status := Interrupted)
    case Tick(p) =>
      if p.key == Some(Esc) then d.(status := Cancelled)
      else if p.key.Some? && IsTerminator((p.key.value as int) as char) then
        d.(status := if |d.items| == 0 then Completed else Running)
      else d
  }

  /** Put up the next item, if any; the tallies were already updated. */
  function Advance(d: Sprint): (r: Sprint)
    requires d.index < |d.items|
    ensures WellFormed(r)
    ensures r == d.(index := d.index + 1, typed := [], status := r.status)
    ensures r.status == (if r.index == |r.items| then Completed else Running)
  {
    d.(index := d.index + 1, typed := [],
       status := if d.index + 1 == |d.items| then Completed else Running)
  }

  /** Count the current item wrong and remember it with the trimmed buffer. */
  function CountMiss(d: Sprint): (r: Sprint)
    requires d.index < |d.items|
    ensures r == d.(wrong := d.wrong + 1, missed := r.missed)
    ensures |r.missed| == |d.missed| + 1 && r.missed[..|d.missed|] == d.missed
    ensures r.missed[|d.missed|] == (d.items[d.index], TrimRight(d.typed))
  {
    d.(wrong := d.wrong + 1, missed := d.missed + [(d.items[d.index], TrimRight(d.typed))])
  }

  /** The device byte of one pass; the flag says whether it sealed the item. */
  function OnDevice(d: Sprint, dev: Option<byte>): (r: (Sprint, bool))
    requires WellFormed(d) && d.status == Running
    ensures r.0.items == d.items && r.0.index == d.index && r.0.status == Running
    ensures r.0.limitMs == d.limitMs
    ensures r.0.missed == d.missed || r.0.missed == d.missed + [(d.items[d.index], TrimRight(d.typed))]
    ensures r.1 <==> dev == Some(0x20)
    ensures dev == Some(0x20) ==> r.0.right + r.0.wrong == d.right + d.wrong + 1
    ensures dev == Some(0x20) ==> (r.0.right == d.right + 1 <==> TrimRight(d.typed) == d.items[d.index])
    ensures dev == Some(0x20) ==> r.0.wrong == d.wrong + (if TrimRight(d.typed) == d.items[d.index] then 0 else 1)
    ensures r.1 ==> r.0 == d.(right := r.0.right, wrong := r.0.wrong, missed := r.0.missed)
    ensures dev.Some? && Classify(dev.value).Echo? && dev.value != 0x20
      ==> r.0 == d.(typed := d.typed + [Upper(Classify(dev.value).ch)])
    ensures dev.None? || Classify(dev.value).Status? || Classify(dev.value).Dropped? ==> r.0 == d
    ensures dev.Some? && Classify(dev.value).PotReading? ==> !r.1 && r.0 == d.(keyer := r.0.keyer, sent := r.0.sent)
  {
    if dev.None? then (d, false)
    else match Classify(dev.value)
      case PotReading(pot) =>
        var (k, frames) := OnPot(d.keyer, pot);
        (d.(keyer := k, sent := d.sent + frames), false)
      case Status => (d, false)
      case Dropped => (d, false)
      case Echo(c) =>
        match EditFor(c)
        case Seal =>
          if TrimRight(d.typed) == d.items[d.index] then (d.(right := d.right + 1), true)
          else (CountMiss(d), true)
        case Erase => (d.(typed := Backspace(d.typed)), false)
        case Type(u) => (d.(typed := d.typed + [u]), false)
  }

  /** One pass while an item is up, as written: ESC first, then the device, then the deadline. */
  function Step(d: Sprint, e: Event): (r: Sprint)
    requires WellFormed(d)
    ensures WellFormed(r)
    ensures r.items == d.items && r.limitMs == d.limitMs
    ensures !d.status.Waiting? && !d.status.Running? ==> r == d
    ensures d.index <= r.index <= d.index + 1
    ensures |d.missed| <= |r.missed| <= |d.missed| + 2 && r.missed[..|d.missed|] == d.missed
  {
    if d.status == Waiting then Gate(d, e)
    else if d.status != Running then d
    else match e
      case Interrupt => d.(status := Interrupted)
      case Tick(p) =>
        if p.key == Some(Esc) then
          d.(wrong := d.wrong + (|d.items| - d.index), status := Aborted)
        else
          var (d1, sealed) := OnDevice(d, p.device);
          if p.elapsedMs >= d.limitMs then Advance(CountMiss(d1))
          else if sealed then Advance(d1)
          else d1
  }

  /** The same pass with the deadline test applied only to an item still open. */
  function StepCorrected(d: Sprint, e: Event): (r: Sprint)
    requires WellFormed(d)
    ensures WellFormed(r)
    ensures r.items == d.items && r.limitMs == d.limitMs
    ensures !d.status.Waiting? && !d.status.Running? ==> r == d
    ensures d.index <= r.index <= d.index + 1
    ensures |d.missed| <= |r.missed| <= |d.missed| + 1 && r.missed[..|d.missed|] == d.missed
  {
    if d.status == Waiting then Gate(d, e)
    else if d.status != Running then d
    else match e
      case Interrupt => d.(status := Interrupted)
      case Tick(p) =>
        if p.key == Some(Esc) then
          d.(wrong := d.wrong + (|d.items| - d.index), status := Aborted)
        else
          var (d1, sealed) := OnDevice(d, p.device);
          if sealed then Advance(d1)
          else if p.elapsedMs >= d.limitMs then Advance(CountMiss(d1))
          else d1
  }

  function Run(d: Sprint, es: seq<Event>): (r: Sprint)
    requires WellFormed(d)
    ensures WellFormed(r) && r.items == d.items
    decreases |es|
  {
    if |es| == 0 then d else Run(Step(d, es[0]), es[1..])
  }

  function RunCorrected(d: Sprint, es: seq<Event>): (r: Sprint)
    requires WellFormed(d)
    ensures WellFormed(r) && r.items == d.items
    decreases |es|
  {
    if |es| == 0 then d else RunCorrected(StepCorrected(d, es[0]), es[1..])
  }

  /**
   * Every wrong count except the bulk charge of ESC comes with exactly one entry in the
   * missed list; this holds for both versions.
   */
  predicate MissedMatchesWrong(d: Sprint) {
    && (d.status != Aborted ==> d.wrong == |d.missed|)
    && (d.status == Aborted ==> d.wrong == |d.missed| + (|d.items| - d.index))
  }

  /** Each recorded miss names one of the session's items. */
  predicate MissesAreItems(d: Sprint) {
    forall m :: 0 <= m < |d.missed| ==> d.missed[m].0 in d.items
  }

  /** The corrected version counts each item exactly once. */
  predicate Tally(d: Sprint) {
    && (!d.status.Settled() ==> d.right + d.wrong == d.index)
    && (d.status.Settled() ==> d.right + d.wrong == |d.items|)
  }

  /** The version as written counts each sealed item once or twice. */
  predicate LooseTally(d: Sprint) {
    && (!d.status.Settled() ==> d.index <= d.right + d.wrong <= 2 * d.index)
    && (d.status == Completed ==> |d.items| <= d.right + d.wrong <= 2 * |d.items|)
    && (d.status == Aborted ==> |d.items| <= d.right + d.wrong <= |d.items| + d.index)
  }

  lemma OnDeviceFacts(d: Sprint, dev: Option<byte>)
    requires WellFormed(d) && d.status == Running
    ensures var (d1, sealed) := OnDevice(d, dev);
      && d1.wrong == d.wrong + |d1.missed| - |d.missed|
      && d1.right + d1.wrong == d.right + d.wrong + (if sealed then 1 else 0)
      && (sealed || d1.missed == d.missed)
      && (d1.missed == d.missed || (d1.missed == d.missed + [(d.items[d.index], TrimRight(d.typed))] && sealed))
      && (!sealed ==> d1.right == d.right && d1.wrong == d.wrong)
      && (sealed ==> d1.typed == d.typed && d1.keyer == d.keyer && d1.sent == d.sent)
  {
  }

  /** Telemetry in the timed loop retunes the speed and never touches the item, the buffer, the tallies or the misses. */
  lemma TelemetryOrthogonal(d: Sprint, b: byte)
    requires WellFormed(d) && d.status == Running && Classify(b).PotReading?
    ensures var (r, sealed) := OnDevice(d, Some(b));
      && !sealed
      && r == d.(keyer := r.keyer, sent := r.sent)
      && r.keyer == OnPot(d.keyer, Classify(b).pot).0
      && r.sent == d.sent + OnPot(d.keyer, Classify(b).pot).1
  {
  }

  /** Charging a miss keeps the miss list in step with the wrong count and within the items. */
  lemma CountMissKeeps(d: Sprint)
    requires d.index < |d.items| && d.status != Aborted
    requires MissedMatchesWrong(d) && MissesAreItems(d)
    ensures MissedMatchesWrong(CountMiss(d)) && MissesAreItems(CountMiss(d))
  {
    var r := CountMiss(d);
    forall m | 0 <= m < |r.missed|
      ensures r.missed[m].0 in r.items
    {
      if m < |d.missed| {
        assert r.missed[m] == d.missed[m];
      }
    }
  }

  /** The pass of a running item without ESC, in the version as written. */
  lemma PassKeepsInvariants(d: Sprint, p: Poll)
    requires WellFormed(d) && d.status == Running && p.key != Some(Esc)
    requires MissedMatchesWrong(d) && LooseTally(d) && MissesAreItems(d)
    ensures var r := Step(d, Tick(p)); MissedMatchesWrong(r) && LooseTally(r) && MissesAreItems(r)
  {
    var (d1, sealed) := OnDevice(d, p.device);
    OnDeviceFacts(d, p.device);
    if sealed && d1.missed != d.missed {
      CountMissKeeps(d);
    }
    assert MissedMatchesWrong(d1) && MissesAreItems(d1);
    if p.elapsedMs >= d.limitMs {
      CountMissKeeps(d1);
      assert Step(d, Tick(p)) == Advance(CountMiss(d1));
    } else if sealed {
      assert Step(d, Tick(p)) == Advance(d1);
    } else {
      assert Step(d, Tick(p)) == d1;
    }
  }

  /** The same pass in the corrected version. */
  lemma PassCorrectedKeepsInvariants(d: Sprint, p: Poll)
    requires WellFormed(d) && d.status == Running && p.key != Some(Esc)
    requires MissedMatchesWrong(d) && Tally(d) && MissesAreItems(d)
    ensures var r := StepCorrected(d, Tick(p)); MissedMatchesWrong(r) && Tally(r) && MissesAreItems(r)
  {
    var (d1, sealed) := OnDevice(d, p.device);
    OnDeviceFacts(d, p.device);
    if sealed && d1.missed != d.missed {
      CountMissKeeps(d);
    }
    if !sealed && p.elapsedMs >= d.limitMs {
      CountMissKeeps(d1);
    }
  }

  lemma StepKeepsInvariants(d: Sprint, e: Event)
    requires WellFormed(d) && MissedMatchesWrong(d) && LooseTally(d) && MissesAreItems(d)
    ensures var r := Step(d, e); MissedMatchesWrong(r) && LooseTally(r) && MissesAreItems(r)
  {
    if d.status == Running && e.Tick? && e.poll.key != Some(Esc) {
      PassKeepsInvariants(d, e.poll);
    }
  }

  lemma StepCorrectedKeepsInvariants(d: Sprint, e: Event)
    requires WellFormed(d) && MissedMatchesWrong(d) && Tally(d) && MissesAreItems(d)
    ensures var r := StepCorrected(d, e); MissedMatchesWrong(r) && Tally(r) && MissesAreItems(r)
  {
    if d.status == Running && e.Tick? && e.poll.key != Some(Esc) {
      PassCorrectedKeepsInvariants(d, e.poll);
    }
  }

  lemma {:induction false} RunKeepsInvariants(d: Sprint, es: seq<Event>)
    requires WellFormed(d) && MissedMatchesWrong(d) && LooseTally(d) && MissesAreItems(d)
    ensures var r := Run(d, es); MissedMatchesWrong(r) && LooseTally(r) && MissesAreItems(r)
    decreases |es|
  {
    if |es| > 0 {
      StepKeepsInvariants(d, es[0]);
      RunKeepsInvariants(Step(d, es[0]), es[1..]);
    }
  }

  lemma {:induction false} RunCorrectedKeepsInvariants(d: Sprint, es: seq<Event>)
    requires WellFormed(d) && MissedMatchesWrong(d) && Tally(d) && MissesAreItems(d)
    ensures var r := RunCorrected(d, es); MissedMatchesWrong(r) && Tally(r) && MissesAreItems(r)
    decreases |es|
  {
    if |es| > 0 {
      StepCorrectedKeepsInvariants(d, es[0]);
      RunCorrectedKeepsInvariants(StepCorrected(d, es[0]), es[1..]);
    }
  }

  /** Corrected session: once it is over, right + wrong is the number of items, and wrong = misses (+ ESC charge). */
  lemma CorrectedSessionCountsEveryItem(items: seq<string>, limitMs: nat, k: Config, es: seq<Event>)
    requires RunCorrected(Start(items, limitMs, k), es).status.Settled()
    ensures var r := RunCorrected(Start(items, limitMs, k), es);
      && r.right + r.wrong == |items|
      && MissedMatchesWrong(r)
  {
    RunCorrectedKeepsInvariants(Start(items, limitMs, k), es);
  }

  /** As written: a finished session counts between one and two results per item. */
  lemma SessionCountsBounded(items: seq<string>, limitMs: nat, k: Config, es: seq<Event>)
    ensures var r := Run(Start(items, limitMs, k), es);
      && LooseTally(r)
      && MissedMatchesWrong(r)
      && MissesAreItems(r)
  {
    RunKeepsInvariants(Start(items, limitMs, k), es);
  }

  /**
   * Deadline: when the pass that reaches the limit does not seal the item, the item is
   * counted wrong, never right, and the trimmed buffer is recorded as the answer (both versions).
   */
  lemma DeadlineTimesOut(d: Sprint, p: Poll)
    requires WellFormed(d) && d.status == Running
    requires p.key != Some(Esc) && p.elapsedMs >= d.limitMs
    requires !OnDevice(d, p.device).1
    ensures var d1 := OnDevice(d, p.device).0;
      && Step(d, Tick(p)) == StepCorrected(d, Tick(p))
      && Step(d, Tick(p)).right == d.right
      && Step(d, Tick(p)).wrong == d.wrong + 1
      && Step(d, Tick(p)).missed == d.missed + [(d.items[d.index], TrimRight(d1.typed))]
      && Step(d, Tick(p)).index == d.index + 1
  {
  }

  /** The passes that differ between the two versions are exactly the seal-at-deadline ones. */
  lemma VersionsDifferOnlyAtDeadlineSeal(d: Sprint, e: Event)
    requires WellFormed(d)
    requires Step(d, e) != StepCorrected(d, e)
    ensures d.status == Running && e.Tick? && e.poll.key != Some(Esc)
    ensures e.poll.elapsedMs >= d.limitMs && OnDevice(d, e.poll.device).1
    ensures Step(d, e).wrong == StepCorrected(d, e).wrong + 1
    ensures Step(d, e).right == StepCorrected(d, e).right
  {
  }

  /** ESC wins over whatever else the pass brings, deadline included, and ends the session. */
  lemma EscWins(d: Sprint, p: Poll)
    requires WellFormed(d) && d.status == Running && p.key == Some(Esc)
    ensures var r := Step(d, Tick(p));
      && r == StepCorrected(d, Tick(p))
      && r.status == Aborted && r.wrong == d.wrong + (|d.items| - d.index)
      && r.right == d.right && r.missed == d.missed && r.sent == d.sent
  {
  }

  /** The trace of the finding: "E" keyed, then the space arrives in the pass that reaches 1 s. */
  const DoubleCountTrace: seq<Event> := [
    Tick(Poll(Some(0x20), None, 0)),
    Tick(Poll(None, Some(0x45), 10)),
    Tick(Poll(None, Some(0x20), 1000))]

  /** The first two passes of the trace, common to both versions: the gate opens and "E" is keyed. */
  lemma DoubleCountOpening()
    ensures var d0 := Start(["E"], 1000, Initial);
      && Step(d0, DoubleCountTrace[0]) == StepCorrected(d0, DoubleCountTrace[0]) == d0.(status := Running)
    ensures var d1 := Start(["E"], 1000, Initial).(status := Running);
      && Step(d1, DoubleCountTrace[1]) == StepCorrected(d1, DoubleCountTrace[1]) == d1.(typed := "E")
  {
    assert IsTerminator((0x20 as int) as char);
    assert Classify(0x45) == Echo('E');
    assert EditFor('E') == Type('E');
  }

  /** As written, the single item is counted both right and wrong and listed as missed. */
  lemma DoubleCountWitness()
    ensures var r := Run(Start(["E"], 1000, Initial), DoubleCountTrace);
      && r.status == Completed && r.right == 1 && r.wrong == 1
      && r.right + r.wrong == 2 * |r.items|
      && r.missed == [("E", "E")]
  {
    var es := DoubleCountTrace;
    var d0 := Start(["E"], 1000, Initial);
    var d1 := d0.(status := Running);
    var d2 := d1.(typed := "E");
    DoubleCountOpening();
    assert Classify(0x20) == Echo(' ');
    CleanTrimmed("E");
    var d3 := Step(d2, es[2]);
    assert d3 == d2.(index := 1, typed := [], right := 1, wrong := 1, missed := [("E", "E")], status := Completed);
    assert Run(d0, es) == Run(d1, es[1..]);
    assert Run(d1, es[1..]) == Run(d2, es[2..]);
    assert Run(d2, es[2..]) == Run(d3, []);
  }

  /** Corrected, the same trace counts the item once, right, with nothing missed. */
  lemma DoubleCountCorrected()
    ensures var r := RunCorrected(Start(["E"], 1000, Initial), DoubleCountTrace);
      && r.status == Completed && r.right == 1 && r.wrong == 0 && r.missed == []
  {
    var es := DoubleCountTrace;
    var d0 := Start(["E"], 1000, Initial);
    var d1 := d0.(status := Running);
    var d2 := d1.(typed := "E");
    DoubleCountOpening();
    assert Classify(0x20) == Echo(' ');
    CleanTrimmed("E");
    var d3 := StepCorrected(d2, es[2]);
    assert d3 == d2.(index := 1, typed := [], right := 1, status := Completed);
    assert RunCorrected(d0, es) == RunCorrected(d1, es[1..]);
    assert RunCorrected(d1, es[1..]) == RunCorrected(d2, es[2..]);
    assert RunCorrected(d2, es[2..]) == RunCorrected(d3, []);
  }

  /** The buffer never holds a blank, so the trim before comparing never changes it. */
  lemma StepKeepsClean(d: Sprint, e: Event)
    requires WellFormed(d) && Clean(d.typed)
    ensures Clean(Step(d, e).typed) && Clean(StepCorrected(d, e).typed)
    ensures TrimRight(d.typed) == d.typed
  {
    CleanTrimmed(d.typed);
    if d.status == Running && e.Tick? && e.poll.key != Some(Esc) && e.poll.device.Some? {
      var b := e.poll.device.value;
      if Classify(b).Echo? {
        EchoNeverErases(b);
        if EditFor(Classify(b).ch).Type? {
          TypeKeepsClean(d.typed, b);
        }
      }
    }
  }
}

=== FILE: telemetry.dfy ===
/**
 * Bytes arriving from the keyer during practice: sorted by their two high bits into
 * speed-pot telemetry, status bytes and echoed characters, and the pot reading turned
 * into a new speed that is pushed back to the keyer when it differs.
 */
module Telemetry {
  import opened Wrappers
  import opened Protocol
  import opened Keyer

  /** What one inbound byte means to the practice loops. */
  datatype Inbound =
    | PotReading(pot: nat)   // 10xxxxxx: the byte with its top bit cleared
    | Status                 // 11xxxxxx: acknowledged by doing nothing
    | Echo(ch: char)         // printable 32..126: a character the keyer decoded
    | Dropped                // any other byte: control codes and DEL

  /**
   * The classification as the loops write it: mask first, then the printable range.
   * The masks are written arithmetically: `b & 0xC0` is `b / 64` in the top two bits
   * and `b & 0x7F` is `b % 128`.
   */
  function Classify(b: byte): (r: Inbound)
    ensures r.PotReading? <==> 128 <= b as int < 192
    ensures r.PotReading? ==> r.pot == b as int - 128 && r.pot < 64
    ensures r.Status? <==> 192 <= b as int
    ensures r.Echo? <==> 32 <= b as int <= 126
    ensures r.Echo? ==> r.ch as int == b as int
    ensures r.Dropped? <==> b as int < 32 || b as int == 127
  {
    if b / 64 == 2 then PotReading((b % 128) as nat)
    else if b / 64 == 3 then Status
    else if 32 <= b as int <= 126 then Echo((b as int) as char)
    else Dropped
  }

  /**
   * C++ integer division, which truncates toward zero: the remainder takes the sign of
   * the dividend, where Dafny's own division keeps it non-negative.
   */
  function CDiv(a: int, d: int): (q: int)
    requires d > 0
    ensures a >= 0 ==> 0 <= a - q * d < d
    ensures a < 0 ==> -d < a - q * d <= 0
  {
    if a >= 0 then a / d else -((-a) / d)
  }

  /** The divisor the loops use: a full-scale pot reading is taken to be 31. */
  const PotScale := 31

  /**
   * speedPotMinWpm + potVal * (max - min) / 31, evaluated as C++ ints. Reading 0 gives
   * the minimum and reading 31 the maximum, exactly. The reading is not clamped: with a
   * proper range every reading stays at or above the minimum and readings up to 31 stay
   * within the range, but the byte can carry up to 63, and from 62 on the speed is at
   * least twice the span above the minimum.
   */
  function PotWpm(potMin: int, potMax: int, pot: nat): (w: int)
    ensures pot == 0 ==> w == potMin
    ensures pot == PotScale ==> w == potMax
    ensures potMin < potMax ==> potMin <= w
    ensures potMin < potMax && pot <= PotScale ==> w <= potMax
    ensures potMin < potMax && pot >= 2 * PotScale ==> w >= potMin + 2 * (potMax - potMin)
  {
    ScaledSpan(potMax - potMin, pot);
    potMin + CDiv(pot * (potMax - potMin), PotScale)
  }

  /** What the rescale's quotient does with a span d: the facts PotWpm's contract rests on. */
  lemma ScaledSpan(d: int, pot: nat)
    ensures pot == PotScale ==> CDiv(pot * d, PotScale) == d
    ensures d > 0 ==> 0 <= CDiv(pot * d, PotScale)
    ensures d > 0 && pot <= PotScale ==> CDiv(pot * d, PotScale) <= d
    ensures d > 0 && pot >= 2 * PotScale ==> CDiv(pot * d, PotScale) >= 2 * d
  {
    if pot == PotScale {
      if d >= 0 {
        MulDivCancel(d, PotScale);
        assert pot * d == d * PotScale;
      } else {
        MulDivCancel(-d, PotScale);
        assert -(pot * d) == (-d) * PotScale;
      }
    }
    if d > 0 {
      assert pot * d >= 0;
      if pot <= PotScale {
        MulMonotone(d, pot, PotScale);
        DivMonotone(pot * d, PotScale * d, PotScale);
        MulDivCancel(d, PotScale);
        assert PotScale * d == d * PotScale;
      }
      if pot >= 2 * PotScale {
        MulMonotone(d, 2 * PotScale, pot);
        DivMonotone(d * (2 * PotScale), d * pot, PotScale);
        MulDivCancel(2 * d, PotScale);
        assert d * (2 * PotScale) == 2 * d * PotScale;
      }
    }
  }

  /** With a proper range the speed never falls as the pot turns up. */
  lemma PotWpmMonotone(potMin: int, potMax: int, p: nat, q: nat)
    requires potMin < potMax
    requires p <= q
    ensures PotWpm(potMin, potMax, p) <= PotWpm(potMin, potMax, q)
  {
    var d := potMax - potMin;
    assert p * d <= q * d by {
      MulMonotone(d, p, q);
    }
    DivMonotone(p * d, q * d, PotScale);
    assert CDiv(p * d, PotScale) <= CDiv(q * d, PotScale);
  }

  lemma DivMonotone(a: nat, b: nat, d: nat)
    requires a <= b && d > 0
    ensures a / d <= b / d
  {
    var qa, qb := a / d, b / d;
    assert a == d * qa + a % d;
    assert b == d * qb + b % d;
    if qa > qb {
      assert d * qa >= d * (qb + 1) by {
        MulMonotone(d, qb + 1, qa);
      }
      assert false;
    }
  }

  lemma MulMonotone(d: nat, x: int, y: int)
    requires x <= y
    ensures d * x <= d * y
  {
  }

  lemma MulDivCancel(x: nat, d: nat)
    requires d > 0
    ensures x * d / d == x
  {
    var q := x * d / d;
    assert x * d == d * q + x * d % d;
    if q > x {
      MulMonotone(d, x + 1, q);
      assert false;
    } else if q < x {
      MulMonotone(d, q, x - 1);
      assert false;
    }
  }

  lemma TopReadingOverflowsRange()
    ensures Classify(0xBF) == PotReading(63)
    ensures PotWpm(Initial.potMin, Initial.potMax, 63) == 65
  {
  }

  /**
   * One pot reading: recompute the speed and, only if it changed, store it and emit one
   * speed-set frame in the configured variant. Nothing else in the configuration moves.
   */
  function OnPot(c: Config, pot: nat): (r: (Config, seq<Frame>))
    ensures r.0 == c.(wpm := PotWpm(c.potMin, c.potMax, pot))
    ensures |r.1| == (if PotWpm(c.potMin, c.potMax, pot) != c.wpm then 1 else 0)
    ensures |r.1| == 1 ==> Decode(r.1[0]) == Some(SpeedCommand(c.buffered, r.0.wpm))
  {
    var w := PotWpm(c.potMin, c.potMax, pot);
    if w != c.wpm then (c.(wpm := w), [SpeedFrame(c.buffered, w)]) else (c, [])
  }

  /** The same reading twice sends at most one frame: the second finds the speed already set. */
  lemma OnPotIdempotent(c: Config, pot: nat)
    ensures OnPot(OnPot(c, pot).0, pot) == (OnPot(c, pot).0, [])
  {
  }
}

=== FILE: wrappers.dfy ===
/** The optional value used wherever the keyer code refuses an operand or a lookup fails. */
module Wrappers {

  datatype Option<+T> = None | Some(value: T) {

    function GetOr(default: T): T {
      match this
      case Some(v) => v
      case None => default
    }
  }
}
